=== FILE: README.md ===
# Clevers School: verified model of the access and listing logic

Clevers School is a Next.js site of study material for Kenyan secondary
schools. Its documents live in Google Drive folders. Users and subscriptions
live in MongoDB. This project models, in Dafny, the thin layer of decision
logic that sits on top of those services:

- **Admin subscription endpoint** (`POST /api/admin/subscriptions`). It checks
  the admin allow-list, then the body, then that the user exists. A *grant*
  marks every active record of the user inactive and appends one new active
  record. A *revoke* marks every active record of the user revoked.
- **Admin user listing** (`GET /api/admin/users`). It lists all users, newest
  first, and joins them with the active, unexpired subscriptions through a
  map in which the last record of a user wins.
- **Registration endpoint**. It checks the fields and the password length,
  then maps the creation call's throws to 409 or 500.
- **Credentials sign-in** (`auth.ts`). This covers the `authorize` chain, the
  `jwt` and `session` callbacks, and the 30-day lifetimes.
- **Assignments and set-book pages**. These fetch every configured folder,
  filter by search terms, group by folder sorted by name, and render in
  configuration order. Both pages run the same code over different folder
  lists. `FolderListing` models it once, parameterised by a `Listing`, and
  instantiates it as `Assignments` and `SetBooks`.
- **Admin dashboard page**. This is the redirect guard, the user search
  filter, and the choice between the grant and revoke buttons.
- **Mobile bottom navigation**. This is the active-item predicate, the labels
  that depend on sign-in, and the avatar initial.

The collections are sequences in insertion order. Each request is one pure
transition from an old collection to a new one. Times are integer
milliseconds, and `setDate(getDate() + n)` adds `n * 86_400_000`.

Four things outside the model are parameters of the handlers:

- which database call throws, as an explicit fault value;
- the password-hash comparison;
- `createUser`;
- the folder fetch.

Name collation (`localeCompare`) is a parameter `precedes`. Sortedness is
proved whenever that collation is total.

Modules:

- `Prelude`: Option, filter, stable sort, subsequence, truthy strings.
- `JsString`: the JavaScript string operations the code uses.
- `Sessions`: the session shape and the admin allow-list.
- `Records`: the user and subscription documents, ObjectId parsing and lookups.
- One module per source file: `Subscriptions`, `AdminUsers`, `Register`,
  `Auth`, `FolderListing`, `AdminPage`, `BottomNav`.

Reply rows (`AdminUsers.UserRow`) and the public user of a registration
reply (`Register.PublicUser`) have no password field, so no reply can carry
one.

## Model

| member | source | states |
|---|---|---|
| `Sessions.SessionEmail` | app/api/admin/subscriptions/route.ts:13 | the session email is defined iff the session, its user and a non-empty email all exist, and it is then that email |
| `Sessions.IsAdminSession` | app/api/admin/subscriptions/route.ts:13-15 | a session passes the admin gate only if it has a user whose email is the administrator address |
| `Sessions.AdminSessionIsAdminEmail` | app/api/admin/subscriptions/route.ts:7-15 | the routes' allow-list test accepts a session iff its email is the one administrator address |
| `Records.ParseObjectId` | app/api/admin/subscriptions/route.ts:28 | an id parses iff it is 24 hex digits of either case; the result is the input lower-cased character by character, so canonical lower-case hex, and a canonical id parses to itself |
| `Records.FindUser` | app/api/admin/subscriptions/route.ts:28 | `findOne` on one user field finds a user iff some user holds the value there, and the one found is in the collection with that value |
| `Records.FindUserIsFirst` | auth.ts:21-23 | the user found is the first in collection order holding the value; no earlier user does |
| `Records.FindUserById` | app/api/admin/subscriptions/route.ts:28-31 | a user is found iff some user has the id, and the one found is in the collection with that id |
| `Records.FindUserByEmail` | auth.ts:21-27 | a user is found iff some user has the email, and the one found is in the collection with that email |
| `Subscriptions.ParseAction` | app/api/admin/subscriptions/route.ts:19 | only the exact strings "grant" and "revoke" name an action |
| `Subscriptions.RetireActive` | app/api/admin/subscriptions/route.ts:40-43 | the update keeps the size and every record's user id, sets status and `updatedAt` on the user's active records, and leaves every other record as it was |
| `Subscriptions.ApplyGrant` | app/api/admin/subscriptions/route.ts:39-60 | the grant replies 200 iff neither write throws, else the 500 reply; a throwing update changes nothing; on success the collection grows by one record, the only active record carrying the request's `userId` string, expiring `days` days after now |
| `Subscriptions.ApplyRevoke` | app/api/admin/subscriptions/route.ts:64-69 | the revoke keeps the size and replies 200 iff the update does not throw; a throw gives the 500 reply and changes nothing; on success no record of the user is active |
| `Subscriptions.Post` | app/api/admin/subscriptions/route.ts:9-76 | 401 iff the session is not an admin's; 400 iff admin, body parsed and userId falsy or action unknown; 404 iff the id parses and names no user; 200 only with a valid body and an existing user and no fault before the writes, and always 200 for an admin with a valid body naming an existing user when no database call throws; on 400/401/404 the collection is unchanged; the collection grows by at most one record |
| `Subscriptions.RetireActivePointwise` | app/api/admin/subscriptions/route.ts:40-43 | the update rewrites status and `updatedAt` of exactly the user's active records and keeps every other record |
| `Subscriptions.NoActiveAfterRetire` | app/api/admin/subscriptions/route.ts:64-67 | after the update to a non-active status the user has no active record |
| `Subscriptions.RetireWithoutTargetsIsIdentity` | app/api/admin/subscriptions/route.ts:64-67 | the update leaves the collection unchanged when the user has no active record |
| `Subscriptions.GrantEffect` | app/api/admin/subscriptions/route.ts:33-60 | a successful grant appends one record; the user's old active records become inactive; other records are kept; the appended record is the only active one carrying the request's `userId` string and carries plan "premium", amount 0, currency "KES", start now, expiry now plus durationDays (default 365) days, the reference naming the admin, and the success message |
| `Subscriptions.RevokeEffect` | app/api/admin/subscriptions/route.ts:62-69 | a successful revoke keeps the size; every previously active record of the user becomes revoked; other records are kept; no record of the user stays active |
| `Subscriptions.RevokeWithoutActiveIsNoOp` | app/api/admin/subscriptions/route.ts:62-69 | revoking a user without active records returns the success message and changes nothing |
| `Subscriptions.GrantInsertFailureLeavesNoActive` | app/api/admin/subscriptions/route.ts:40-58 | if the insert throws after the update, the reply is 500 and the user has no active record at all |
| `Subscriptions.PostPreservesSingleActive` | app/api/admin/subscriptions/route.ts:39-58 | every request keeps "at most one active record per `userId` string" true |
| `Subscriptions.CaseVariantsParseAlike` | app/api/admin/subscriptions/route.ts:28 | the upper- and lower-case forms of one 24-digit id parse to the same id |
| `Subscriptions.CaseVariantGrantsLeaveTwoActive` | app/api/admin/subscriptions/route.ts:28-58 | a grant through the upper-case form of a user's id followed by a grant through the lower-case form succeeds and leaves two active records for that one user |
| `Subscriptions.CaseVariantRevokeLeavesGrantActive` | app/api/admin/subscriptions/route.ts:28-69 | after a grant through the lower-case form of a user's id, a revoke through the upper-case form replies 200 "Revoked premium from …" but leaves the store unchanged, with the user's record still active |
| `AdminUsers.Get` | app/api/admin/users/route.ts:9-59 | 401 iff the session is not an admin's; 500 iff admin and a database call throws; 200 with the rows otherwise |
| `AdminUsers.ByCreatedDesc` | app/api/admin/users/route.ts:19-23 | the users listed are a permutation of the collection with `createdAt` non-increasing |
| `AdminUsers.SubMap` | app/api/admin/users/route.ts:35-38 | each key of the map holds a record of that user id |
| `AdminUsers.PlanLabel` | app/api/admin/users/route.ts:50 | the plan shown for a matched record is the record's plan when that is truthy, and "premium" otherwise |
| `AdminUsers.Project` | app/api/admin/users/route.ts:41-51 | a row copies the user's id, name, email and creation time; it is premium iff the map has the user's id, has an expiry exactly then, taken with the plan from the mapped record; a free row says "free" |
| `AdminUsers.Rows` | app/api/admin/users/route.ts:41-52 | one row per user; a row has an expiry iff it is premium, and every free row says "free" |
| `AdminUsers.SubMapKeys` | app/api/admin/users/route.ts:35-38 | a user id is a map key iff some record carries it |
| `AdminUsers.SubMapLastWins` | app/api/admin/users/route.ts:35-38 | the value under a key is the last record with that user id |
| `AdminUsers.SubMapConcat` | app/api/admin/users/route.ts:35-38 | the map of a concatenation is the second map laid over the first |
| `AdminUsers.ValidKey` | app/api/admin/users/route.ts:26-38 | a user id is in the map iff the collection holds an active record with that id expiring after now |
| `AdminUsers.RowsFollowUsers` | app/api/admin/users/route.ts:41-47 | one row per user, in the newest-first order, copying id, name, email and creation time, so every row belongs to a user of the collection |
| `AdminUsers.PremiumIff` | app/api/admin/users/route.ts:41-48 | `isPremium` holds iff some record has the user's id, status active and expiry after now |
| `AdminUsers.RowReportsLastValid` | app/api/admin/users/route.ts:41-51 | a free row has no expiry and plan "free"; a premium row reports expiry and plan (default "premium") of the last valid record of the user |
| `AdminUsers.FreePlanIffNotPremium` | app/api/admin/users/route.ts:50 | the plan reads "free" exactly on the free rows, when no valid record itself names its plan "free" |
| `AdminUsers.InsertedRecordOnlyTouchesItsKey` | app/api/admin/users/route.ts:35-38 | inserting a record anywhere changes the map only under that record's user id |
| `AdminUsers.OrphanRecordIsIgnored` | app/api/admin/users/route.ts:41-42 | a record whose user id names no user changes no row |
| `Register.CatchReply` | app/api/auth/register/route.ts:31-40 | a caught value gives 409 iff it is an Error whose message contains "already exists", 500 otherwise; the message is the error's message or the fallback text |
| `Register.Post` | app/api/auth/register/route.ts:7-41 | 400 iff the body parsed and a field is falsy or the password has fewer than 8 characters; 200 iff every check passes and the creation call returns a user |
| `Register.MissingFieldRejectedBeforeCreation` | app/api/auth/register/route.ts:12-14 | a missing or empty field gives the "required" 400, whatever the creation call would do |
| `Register.PasswordLengthBoundary` | app/api/auth/register/route.ts:16-18 | 1 to 7 characters give the length 400 without consulting the creation call; exactly 8 characters pass validation |
| `Register.SuccessShowsPublicFields` | app/api/auth/register/route.ts:23-30 | a success reply carries exactly the created user's id, name and email |
| `Register.CreationErrorMapping` | app/api/auth/register/route.ts:34-39 | a creation error containing "already exists" becomes 409 with its message; any other throw becomes 500 |
| `Auth.MaxAgesAreThirtyDays` | auth.ts:50-56 | session and token lifetimes are both 2,592,000 seconds |
| `Auth.Authorize` | auth.ts:14-47 | a user is returned iff both credentials are truthy, no database call throws, the email names a user and the hash comparison resolves true; the result is the id, email and name of the user the email lookup finds, never some other user with the same email |
| `Auth.AuthorizeReturnsFirstMatch` | auth.ts:21-23 | when several users share the email, the one signed in is the first of them in collection order, the one `findOne` returns |
| `Auth.MissingCredentialsNeedNoLookup` | auth.ts:16-18 | missing credentials give null, independently of the users, the comparison and the faults |
| `Auth.RejectionCases` | auth.ts:25-46 | an unknown email, a failing comparison or any thrown database call gives null |
| `Auth.JwtCallback` | auth.ts:80-85 | the token id is set to the user's id when a user is present; otherwise the token is unchanged; other claims are kept |
| `Auth.SessionCallback` | auth.ts:86-91 | a session with a user gets the token's id and keeps name and email; a session without a user is unchanged |
| `Auth.SignInIdReachesSession` | auth.ts:80-91 | after a sign-in, a later refresh of the token still gives sessions the signed-in user's id |
| `FolderListing.Tagged` | app/assignments/page.tsx:177 | every loaded file is kept in order and tagged with its folder's id |
| `FolderListing.FailureMessagesCount` | app/assignments/page.tsx:172-174 | there is at most one error entry per folder, and some entry iff some folder failed |
| `FolderListing.NothingLoadedIffAllFailed` | app/assignments/page.tsx:169-183 | with the loaded folders keyed by id, nothing loaded while some error was recorded exactly when there is a folder and every one failed |
| `FolderListing.FetchAllFolders` | app/assignments/page.tsx:162-187 | the loaded folders are exactly the configured ones whose fetch succeeded, each with its tagged files; the error list holds "name: message" for each failed folder in order; the page error is set iff nothing loaded and something failed, i.e. iff every folder failed |
| `FolderListing.LoadAssignments` | app/assignments/page.tsx:36-40 | on the assignments page the error appears iff all three configured folders fail |
| `FolderListing.LoadSetBooks` | app/setbook-guides/page.tsx:36-39 | on the set-book page the error appears iff both configured folders fail |
| `FolderListing.ByNameTotal` | app/assignments/page.tsx:207 | a total collation of names orders files totally |
| `FolderListing.SearchTerms` | app/assignments/page.tsx:196 | the query gives at least one term, no term contains a space, and a blank query gives the single empty term |
| `FolderListing.Matches` | app/assignments/page.tsx:199-203 | the empty query keeps every file; a file kept by a non-empty query has a name at least as long as each term |
| `FolderListing.Group` | app/assignments/page.tsx:199-207 | a folder's group holds exactly the matching files, as a sub-multiset of the folder, sorted by name under a total collation; it is non-empty iff some file matches |
| `FolderListing.FilteredGroups` | app/assignments/page.tsx:194-212 | a loaded folder has a group iff some file of it matches; each group is that folder's non-empty group |
| `FolderListing.MatchesIffTermsOccur` | app/assignments/page.tsx:196-203 | with a non-empty query a file is kept iff every term of the trimmed, lower-cased, space-split query occurs in the lower-cased name |
| `FolderListing.EmptyQueryKeepsEveryFile` | app/assignments/page.tsx:200 | an empty query keeps every file of every loaded folder that has any |
| `FolderListing.BlankQueryMatchesEverything` | app/assignments/page.tsx:196-203 | a whitespace-only query keeps every file, since it trims to one empty term |
| `FolderListing.OneWordTerms` | app/assignments/page.tsx:196 | a query without whitespace has one term, itself lower-cased |
| `FolderListing.OneWordQuery` | app/assignments/page.tsx:199-203 | a one-word query keeps exactly the files whose lower-cased name includes the lower-cased word |
| `FolderListing.SearchTermsRejoin` | app/setbook-guides/page.tsx:194 | the terms contain no space, and joined by single spaces they give back the trimmed lower-cased query |
| `FolderListing.Sections` | app/assignments/page.tsx:245-247 | the rendered sections are a subsequence of the configured folders in order, and every one has files |
| `FolderListing.SectionShownIff` | app/setbook-guides/page.tsx:244-246 | a configured folder is rendered iff it has a non-empty group |
| `FolderListing.EmptyNotice` | app/assignments/page.tsx:267-274 | the notice shows iff no error is shown and no folder has a group; it quotes the query when there is one and is the "nothing available" text otherwise |
| `FolderListing.NoticeOnlyWhenNothingRendered` | app/assignments/page.tsx:267-274 | the "nothing found" notice appears only when no section is rendered |
| `AdminPage.Guard` | app/admin/users/page.tsx:35-44 | nothing happens while loading; the list is fetched iff the session's email is the admin address; every other session redirects |
| `AdminPage.GuardAgreesWithRoutes` | app/admin/users/page.tsx:36-43 | once loaded, the page fetches exactly for the sessions the admin routes accept and redirects all others |
| `AdminPage.UserMatches` | app/admin/users/page.tsx:95-96 | the empty query matches every row; a matched row has an email or a name at least as long as the query |
| `AdminPage.FilteredUsers` | app/admin/users/page.tsx:94-97 | the filtered users are an order-preserving subsequence holding exactly the matching rows, each as many times as it occurs in the list |
| `AdminPage.UserMatchesAt` | app/admin/users/page.tsx:95-96 | a row matches iff the lower-cased query occurs in the lower-cased email, or in the lower-cased name when there is one |
| `AdminPage.EmptyQueryKeepsEveryUser` | app/admin/users/page.tsx:94-97 | an empty query keeps every row in order |
| `AdminPage.NamelessMatchesByEmailOnly` | app/admin/users/page.tsx:96 | a row without a name matches only through its email |
| `AdminPage.ActionFor` | app/admin/users/page.tsx:184-214 | the row offers revoke iff it is premium, grant otherwise |
| `AdminPage.ActionBody` | app/admin/users/page.tsx:64-71 | the posted body names the row's id and its action and sends no duration |
| `AdminPage.ActionSucceeds` | app/admin/users/page.tsx:64-73 | the button's request for an existing user with a canonical id gets a 200 reply |
| `AdminPage.RevokeShowsFree` | app/admin/users/page.tsx:81-82 | after a successful revoke the refreshed listing shows the user as free |
| `AdminPage.GrantShowsPremium` | app/admin/users/page.tsx:81-82 | after a successful grant every listing within 365 days shows the user as premium |
| `AdminPage.ActionFlipsPremium` | app/admin/users/page.tsx:64-92 | pressing a row's button succeeds, and a later listing within 365 days shows the user with the opposite premium status |
| `BottomNav.IsActive` | app/components/MobileBottomNav.tsx:167-170 | an active item's href is a prefix of the path, and the home item is active exactly on "/" |
| `BottomNav.ActiveIffExtension` | app/components/MobileBottomNav.tsx:167-170 | a non-home item is active exactly on its href and every extension of it |
| `BottomNav.PrefixNotSegmentAware` | app/components/MobileBottomNav.tsx:168-169 | "/kcse" is active on "/kcse2024"; home is not active on other paths |
| `BottomNav.AtMostOneActive` | app/components/MobileBottomNav.tsx:161-170 | no two navigation items are active on the same path |
| `BottomNav.ProfileLabel` | app/components/MobileBottomNav.tsx:226 | the profile label is "Account" iff authenticated, "Login" otherwise |
| `BottomNav.SheetHeader` | app/components/MobileBottomNav.tsx:45 | the sheet header is "My Account" iff authenticated, "Welcome" otherwise |
| `BottomNav.LabelsAgree` | app/components/MobileBottomNav.tsx:158-159 | button and sheet agree on being signed in; a loading session reads as signed out |
| `BottomNav.AvatarInitial` | app/components/MobileBottomNav.tsx:63 | the initial is one character: the name's first, or "U" when the name is absent or empty |

## Left out

- Database plumbing (lib/mongodb.ts) and Firebase setup (lib/firebase.ts)
  are I/O wrappers over external SDKs. Each handler takes a fault value that
  says which call throws.
- The Drive listing route, the inspection script and the download proxy are
  network code. The folder fetch is a parameter of `FetchAllFolders`.
- bcrypt and `createUser` (lib/auth) are not part of this model. They are
  parameters: a comparison outcome, and a creation result or a thrown value.
- Calendar arithmetic is left out. `setDate(getDate() + n)` adds exactly n
  days of milliseconds, which ignores daylight-saving shifts.
- A non-number `durationDays`, or a non-string `userId` or field, is not
  modelled. With a string `durationDays`, JavaScript would concatenate it
  into the day number. Fractional days are not modelled either.
- `localeCompare` is an abstract collation `precedes`. Unicode case mapping
  is reduced to ASCII `toLowerCase`. Strings are sequences of characters,
  not UTF-16 code units.
- The order of equal `createdAt` values after Mongo's sort is left out, since
  Mongo leaves it unspecified. `Array.prototype.sort` is stable since
  ECMAScript 2019, and so is the model's insertion sort.
- `Prelude.Sort`: its contract states a permutation that is sorted under a
  total comparator. It does not state stability, although the definition is
  stable.
- `Records.ParseObjectId` follows `new ObjectId(s)` of the bson package from
  version 5 on, which accepts only 24 hex digits. Earlier versions also
  accept any 12-character string as raw bytes; that case is not modelled.
- `Subscriptions.Post`: a throwing `updateMany` is modelled as changing
  nothing. A real partial update could leave some records changed.
- The two writes of a grant are modelled as one step. Concurrent admin
  requests are not modelled, so interleavings and crash windows between the
  writes are left out.
- JSX rendering, styling, toasts, loading spinners, routing and React state
  are left out, and so is the static link page app/page.tsx. The admin page
  refetches the list after an action; that step is modelled only through
  `AdminPage.ActionFlipsPremium`.
- `AdminUsers.FreePlanIffNotPremium` assumes that no valid record has plan
  "free". The source writes such a record's plan through unchanged, so a
  premium row could then read "free".
- `Subscriptions.PostPreservesSingleActive` keeps at most one active record
  per `userId` string, not per user. Both updates filter on the raw string
  the request sent, while the lookup goes through `new ObjectId`, which
  accepts either case. Granting through "AAAAAAAAAAAAAAAAAAAAAAAA" and then
  through "aaaaaaaaaaaaaaaaaaaaaaaa" leaves two active records for one
  user, as `Subscriptions.CaseVariantGrantsLeaveTwoActive` shows.
- A grant stores the raw `userId` string and a revoke filters on it, while
  the listing matches the lower-case form of `_id`. An upper-case hex id is
  accepted by `new ObjectId`, but a grant through it would never show as
  premium. A revoke through it replies 200 "Revoked premium from …" and
  leaves the user's active records, stored under the lower-case id,
  untouched; `Subscriptions.CaseVariantRevokeLeavesGrantActive` shows this.
  `AdminPage.ActionFlipsPremium` therefore assumes the canonical id the
  listing hands out.
- `Subscriptions.Post` assumes `getServerSession` does not throw. In the
  source the call sits inside the `try`, so such a throw would give the 500
  reply to any caller, admin or not, ahead of the 401 check.
- `AdminUsers.Get` assumes the same of its `getServerSession` call, which a
  throw would turn into the 500 "Failed to fetch users" reply for any caller.

=== FILE: admin_page.dfy ===
/** The admin dashboard page: the redirect guard run once the session is
    known, the search filter over the listed rows, and the choice between
    the grant and the revoke button for each row. The page's requests go to
    the two admin routes, so the end-to-end lemma below composes their models. */
module AdminPage {
  import opened Prelude
  import opened JsString
  import opened Sessions
  import opened Records
  import Subscriptions
  import AdminUsers

  /** What the page's effect does with the session it sees. */
  datatype GuardDecision = Wait | Redirect | LoadUsers

  /** The effect: nothing while the session is loading; a redirect home when
      there is no session or its email is not `ADMIN_EMAIL`; otherwise the
      user list is fetched. */
  function Guard(status: SessionStatus, session: Option<Session>): (d: GuardDecision)
    ensures d == Wait <==> status == Loading
    ensures d == LoadUsers <==>
      status != Loading && session.Some? && session.value.user.Some?
      && session.value.user.value.email == Some(AdminEmail)
  {
    if status == Loading then Wait
    else if session.None? || session.value.user.None? || session.value.user.value.email != Some(AdminEmail) then
      Redirect
    else LoadUsers
  }

  /** Once the session is known, the page loads the list exactly for the
      sessions the admin routes accept, and redirects every other one. */
  lemma GuardAgreesWithRoutes(status: SessionStatus, session: Option<Session>)
    requires status != Loading
    ensures Guard(status, session) == LoadUsers <==> IsAdminSession(session)
    ensures Guard(status, session) == Redirect <==> !IsAdminSession(session)
  {
  }

  /** The filter callback: the lower-cased query occurs in the lower-cased
      email, or in the lower-cased name when the row has one. */
  predicate UserMatches(row: AdminUsers.UserRow, query: string)
    ensures query == "" ==> UserMatches(row, query)
    ensures UserMatches(row, query) ==>
      |query| <= |row.email| || (row.name.Some? && |query| <= |row.name.value|)
  {
    Includes(ToLower(row.email), ToLower(query))
    || (row.name.Some? && Includes(ToLower(row.name.value), ToLower(query)))
  }

  /** `UserMatches` as the callback handed to `filter`. */
  function KeepUser(query: string): AdminUsers.UserRow -> bool {
    (row: AdminUsers.UserRow) => UserMatches(row, query)
  }

  /** `filteredUsers`: the matching rows, in list order. */
  function FilteredUsers(rows: seq<AdminUsers.UserRow>, query: string): (r: seq<AdminUsers.UserRow>)
    ensures IsSubsequence(r, rows)
    ensures forall row :: row in r <==> row in rows && UserMatches(row, query)
    ensures forall row :: multiset(r)[row] == if UserMatches(row, query) then multiset(rows)[row] else 0
  {
    Filter(KeepUser(query), rows)
  }

  /** The same filter stated by positions: the query occurs at some offset of
      the lower-cased email or name. */
  lemma UserMatchesAt(row: AdminUsers.UserRow, query: string)
    ensures UserMatches(row, query) <==>
      OccursAt(ToLower(row.email), ToLower(query))
      || (row.name.Some? && OccursAt(ToLower(row.name.value), ToLower(query)))
  {
    IncludesAt(ToLower(row.email), ToLower(query));
    if row.name.Some? {
      IncludesAt(ToLower(row.name.value), ToLower(query));
    }
  }

  /** An empty query keeps every row, in order. */
  lemma EmptyQueryKeepsEveryUser(rows: seq<AdminUsers.UserRow>)
    ensures FilteredUsers(rows, "") == rows
  {
    assert ToLower("") == "";
    forall row | row in rows
      ensures KeepUser("")(row)
    {
      assert StartsWith(ToLower(row.email), "");
    }
    FilterKeepsAll(KeepUser(""), rows);
  }

  /** A row without a name matches only through its email. */
  lemma NamelessMatchesByEmailOnly(row: AdminUsers.UserRow, query: string)
    requires row.name.None?
    ensures UserMatches(row, query) <==> Includes(ToLower(row.email), ToLower(query))
  {
  }

  /** The button a row offers: revoke for a premium row, grant otherwise. */
  function ActionFor(row: AdminUsers.UserRow): (a: Subscriptions.Action)
    ensures a == Subscriptions.Revoke <==> row.isPremium
  {
    if row.isPremium then Subscriptions.Revoke else Subscriptions.Grant
  }

  /** The body `{ userId, action }` the button posts; no duration is sent. */
  function ActionBody(row: AdminUsers.UserRow): (b: Subscriptions.RequestBody)
    ensures b.Json? && b.userId == Some(row.id) && b.durationDays == None
    ensures Subscriptions.ParseAction(b.action) == Some(ActionFor(row))
  {
    Subscriptions.Json(Some(row.id), Some(if ActionFor(row) == Subscriptions.Grant then "grant" else "revoke"), None)
  }

  /** The request a row's button posts succeeds for an existing user with a
      canonical id. */
  lemma ActionSucceeds(session: Option<Session>, users: seq<UserDoc>, store: seq<Subscription>,
                       row: AdminUsers.UserRow, now: int)
    requires IsAdminSession(session)
    requires IsCanonicalId(row.id) && exists u :: u in users && u.id == row.id
    ensures Subscriptions.Post(session, ActionBody(row), users, store, now, Subscriptions.NoFault).response.status == 200
  {
  }

  /** After a successful revoke no listing shows the user as premium. */
  lemma RevokeShowsFree(session: Option<Session>, users: seq<UserDoc>, store: seq<Subscription>,
                        userId: string, now: int, later: int, j: int)
    requires Subscriptions.Post(session, Subscriptions.Json(Some(userId), Some("revoke"), None),
                                users, store, now, Subscriptions.NoFault).response.status == 200
    requires 0 <= j < |users| && AdminUsers.ByCreatedDesc(users)[j].id == userId
    ensures var after := Subscriptions.Post(session, Subscriptions.Json(Some(userId), Some("revoke"), None),
                                            users, store, now, Subscriptions.NoFault).store;
      !AdminUsers.Rows(users, after, later)[j].isPremium
  {
    var after := Subscriptions.Post(session, Subscriptions.Json(Some(userId), Some("revoke"), None),
                                    users, store, now, Subscriptions.NoFault).store;
    Subscriptions.RevokeEffect(session, userId, None, users, store, now, Subscriptions.NoFault);
    AdminUsers.PremiumIff(users, after, later, j);
    forall s | s in after
      ensures !(s.userId == userId && s.status == Active)
    {
      var k :| 0 <= k < |after| && after[k] == s;
      assert !Subscriptions.Targets(after[k], userId);
    }
  }

  /** After a successful grant every listing within the default 365 days
      shows the user as premium. */
  lemma GrantShowsPremium(session: Option<Session>, users: seq<UserDoc>, store: seq<Subscription>,
                          userId: string, now: int, later: int, j: int)
    requires Subscriptions.Post(session, Subscriptions.Json(Some(userId), Some("grant"), None),
                                users, store, now, Subscriptions.NoFault).response.status == 200
    requires 0 <= j < |users| && AdminUsers.ByCreatedDesc(users)[j].id == userId
    requires later < now + Subscriptions.DefaultDurationDays * DayMs
    ensures var after := Subscriptions.Post(session, Subscriptions.Json(Some(userId), Some("grant"), None),
                                            users, store, now, Subscriptions.NoFault).store;
      AdminUsers.Rows(users, after, later)[j].isPremium
  {
    var after := Subscriptions.Post(session, Subscriptions.Json(Some(userId), Some("grant"), None),
                                    users, store, now, Subscriptions.NoFault).store;
    Subscriptions.GrantEffect(session, userId, None, users, store, now, Subscriptions.NoFault);
    AdminUsers.PremiumIff(users, after, later, j);
    var s := after[|store|];
    assert Subscriptions.Targets(s, userId);
    assert s in after && s.userId == userId && s.status == Active && s.expiryDate > later;
  }

  /** Pressing a row's button flips the user's premium status: the request
      succeeds, and every later listing that is still within the default
      365 days of the request shows the user with the opposite status. */
  lemma ActionFlipsPremium(session: Option<Session>, users: seq<UserDoc>, store: seq<Subscription>,
                           row: AdminUsers.UserRow, now: int, later: int, j: int)
    requires IsAdminSession(session)
    requires IsCanonicalId(row.id)
    requires 0 <= j < |users| && AdminUsers.ByCreatedDesc(users)[j].id == row.id
    requires later < now + Subscriptions.DefaultDurationDays * DayMs
    ensures var o := Subscriptions.Post(session, ActionBody(row), users, store, now, Subscriptions.NoFault);
      o.response.status == 200
      && (AdminUsers.Rows(users, o.store, later)[j].isPremium <==> !row.isPremium)
  {
    assert AdminUsers.ByCreatedDesc(users)[j] in multiset(users);
    ActionSucceeds(session, users, store, row, now);
    if row.isPremium {
      RevokeShowsFree(session, users, store, row.id, now, later, j);
    } else {
      GrantShowsPremium(session, users, store, row.id, now, later, j);
    }
  }
}

=== FILE: admin_users.dfy ===
/** The admin user listing (`GET /api/admin/users`): every user, newest
    first, joined with the currently valid subscriptions through a map keyed
    by user id in which the last valid record of a user wins. */
module AdminUsers {
  import opened Prelude
  import opened Records
  import opened Sessions

  /** One row of the reply. There is no password field. */
  datatype UserRow = UserRow(id: string, name: Option<string>, email: string, createdAt: int,
                             isPremium: bool, expiryDate: Option<int>, plan: string)

  datatype ListResponse = Unauthorized | Failed | Listed(rows: seq<UserRow>) {
    function Status(): int {
      match this
      case Unauthorized => 401
      case Failed => 500
      case Listed(_) => 200
    }
  }

  /** The subscription query `{ status: "active", expiryDate: { $gt: now } }`. */
  predicate IsValid(s: Subscription, now: int) {
    s.status == Active && s.expiryDate > now
  }

  /** The records the subscription query returns, in collection order. */
  function ValidSubscriptions(store: seq<Subscription>, now: int): seq<Subscription> {
    Filter(ValidAt(now), store)
  }

  /** `IsValid` at `now` as the callback handed to `Filter`. */
  function ValidAt(now: int): Subscription -> bool {
    (s: Subscription) => IsValid(s, now)
  }

  /** `subMap`: `subMap.set(sub.userId, sub)` for each record in turn. */
  function SubMap(subs: seq<Subscription>): (m: map<string, Subscription>)
    ensures forall k :: k in m ==> m[k].userId == k
  {
    if |subs| == 0 then map[]
    else SubMap(subs[..|subs| - 1])[subs[|subs| - 1].userId := subs[|subs| - 1]]
  }

  /** A user id is a key of the map iff some record carries it. */
  lemma {:induction false} SubMapKeys(subs: seq<Subscription>, userId: string)
    ensures userId in SubMap(subs) <==> exists j :: 0 <= j < |subs| && subs[j].userId == userId
  {
    if |subs| > 0 {
      var front := subs[..|subs| - 1];
      SubMapKeys(front, userId);
      if exists j :: 0 <= j < |front| && front[j].userId == userId {
        var j :| 0 <= j < |front| && front[j].userId == userId;
        assert subs[j] == front[j];
      }
      if exists j :: 0 <= j < |subs| && subs[j].userId == userId {
        var j :| 0 <= j < |subs| && subs[j].userId == userId;
        if j < |front| {
          assert front[j] == subs[j];
        }
      }
    }
  }

  /** Last write wins: the value under a key is the last record with that user id. */
  lemma {:induction false} SubMapLastWins(subs: seq<Subscription>, userId: string)
    requires userId in SubMap(subs)
    ensures exists j :: 0 <= j < |subs| && subs[j].userId == userId && SubMap(subs)[userId] == subs[j]
                        && forall k :: j < k < |subs| ==> subs[k].userId != userId
  {
    var last := subs[|subs| - 1];
    var front := subs[..|subs| - 1];
    if last.userId != userId {
      SubMapLastWins(front, userId);
      var j :| 0 <= j < |front| && front[j].userId == userId && SubMap(front)[userId] == front[j]
               && forall k :: j < k < |front| ==> front[k].userId != userId;
      assert subs[j] == front[j];
      forall k | j < k < |subs|
        ensures subs[k].userId != userId
      {
        if k < |front| {
          assert subs[k] == front[k];
        }
      }
    }
  }

  /** The map of a concatenation is the second map laid over the first. */
  lemma {:induction false} SubMapConcat(a: seq<Subscription>, b: seq<Subscription>)
    ensures SubMap(a + b) == SubMap(a) + SubMap(b)
  {
    if |b| == 0 {
      assert a + b == a;
    } else {
      var b', last := b[..|b| - 1], b[|b| - 1];
      SubMapConcat(a, b');
      calc {
        SubMap(a + b);
        { assert a + b == (a + b') + [last]; }
        SubMap((a + b') + [last]);
        { SubMapSnoc(a + b', last); }
        SubMap(a + b')[last.userId := last];
        (SubMap(a) + SubMap(b'))[last.userId := last];
        { UpdateOverUnion(SubMap(a), SubMap(b'), last.userId, last); }
        SubMap(a) + SubMap(b')[last.userId := last];
        { SubMapSnoc(b', last); assert b == b' + [last]; }
        SubMap(a) + SubMap(b);
      }
    }
  }

  /** Appending a record sets its key. */
  lemma SubMapSnoc(s: seq<Subscription>, x: Subscription)
    ensures SubMap(s + [x]) == SubMap(s)[x.userId := x]
  {
    assert (s + [x])[..|s|] == s;
  }

  /** Updating a union updates its right-hand side. */
  lemma UpdateOverUnion(x: map<string, Subscription>, y: map<string, Subscription>, k: string, v: Subscription)
    ensures (x + y)[k := v] == x + y[k := v]
  {
  }

  /** `sub?.plan || "premium"` for a matched record. */
  function PlanLabel(plan: Option<string>): (text: string)
    ensures text != ""
    ensures text == "premium" || Some(text) == plan
    ensures Present(plan) ==> text == plan.value
    ensures !Present(plan) ==> text == "premium"
  {
    if plan.Some? && plan.value != "" then plan.value else "premium"
  }

  /** The row of one user given the map. */
  function Project(u: UserDoc, m: map<string, Subscription>): (row: UserRow)
    ensures row.id == u.id && row.name == u.name && row.email == u.email && row.createdAt == u.createdAt
    ensures row.isPremium <==> u.id in m
    ensures row.expiryDate.Some? <==> row.isPremium
    ensures row.isPremium ==> row.expiryDate == Some(m[u.id].expiryDate) && row.plan == PlanLabel(m[u.id].plan)
    ensures !row.isPremium ==> row.plan == "free"
  {
    if u.id in m then
      UserRow(u.id, u.name, u.email, u.createdAt, true, Some(m[u.id].expiryDate), PlanLabel(m[u.id].plan))
    else
      UserRow(u.id, u.name, u.email, u.createdAt, false, None, "free")
  }

  /** `sort({ createdAt: -1 })`: newest first. Ties keep collection order. */
  function ByCreatedDesc(users: seq<UserDoc>): (r: seq<UserDoc>)
    ensures |r| == |users|
    ensures multiset(r) == multiset(users)
    ensures forall i :: 1 <= i < |r| ==> r[i - 1].createdAt >= r[i].createdAt
  {
    var newer := (a: UserDoc, b: UserDoc) => a.createdAt >= b.createdAt;
    assert Total(newer);
    var r := Sort(newer, users);
    assert SortedBy(newer, r);
    r
  }

  /** The newest-first list holds only users of the collection. */
  lemma SortedUsersAreUsers(users: seq<UserDoc>)
    ensures forall i :: 0 <= i < |ByCreatedDesc(users)| ==> ByCreatedDesc(users)[i] in users
  {
    var sorted := ByCreatedDesc(users);
    forall i | 0 <= i < |sorted|
      ensures sorted[i] in users
    {
      assert sorted[i] in multiset(users);
    }
  }

  /** The rows of the reply. */
  function Rows(users: seq<UserDoc>, store: seq<Subscription>, now: int): (rows: seq<UserRow>)
    ensures |rows| == |users|
    ensures forall i :: 0 <= i < |rows| ==> (rows[i].expiryDate.Some? <==> rows[i].isPremium)
    ensures forall i :: 0 <= i < |rows| && !rows[i].isPremium ==> rows[i].plan == "free"
  {
    var m := SubMap(ValidSubscriptions(store, now));
    var sorted := ByCreatedDesc(users);
    seq(|sorted|, i requires 0 <= i < |sorted| => Project(sorted[i], m))
  }

  /** The handler; `dbFails` is any throw of the database calls. */
  function Get(session: Option<Session>, users: seq<UserDoc>, store: seq<Subscription>,
               now: int, dbFails: bool): (r: ListResponse)
    ensures r.Unauthorized? <==> !IsAdminSession(session)
    ensures r.Failed? <==> IsAdminSession(session) && dbFails
    ensures r.Listed? ==> r.rows == Rows(users, store, now)
    ensures r.Status() == 401 <==> !IsAdminSession(session)
    ensures r.Status() == 500 <==> IsAdminSession(session) && dbFails
    ensures r.Status() == 200 <==> IsAdminSession(session) && !dbFails
  {
    if !IsAdminSession(session) then Unauthorized
    else if dbFails then Failed
    else Listed(Rows(users, store, now))
  }

  /** One row per user, in the order of the newest-first user list, each
      copying that user's id, name, email and creation time; so every row
      belongs to a user of the collection. */
  lemma RowsFollowUsers(users: seq<UserDoc>, store: seq<Subscription>, now: int)
    ensures var rows := Rows(users, store, now);
      var sorted := ByCreatedDesc(users);
      && |rows| == |users|
      && (forall i :: 0 <= i < |rows| ==>
            rows[i].id == sorted[i].id && rows[i].name == sorted[i].name
            && rows[i].email == sorted[i].email && rows[i].createdAt == sorted[i].createdAt)
      && (forall i :: 0 <= i < |rows| ==> exists u :: u in users && rows[i].id == u.id && rows[i].email == u.email)
  {
    var rows := Rows(users, store, now);
    var sorted := ByCreatedDesc(users);
    SortedUsersAreUsers(users);
    assert forall i :: 0 <= i < |rows| ==> rows[i].id == sorted[i].id && rows[i].email == sorted[i].email;
  }

  /** A user id has a valid subscription in the map iff the collection holds
      an active, unexpired record with that user id. */
  lemma ValidKey(store: seq<Subscription>, now: int, userId: string)
    ensures userId in SubMap(ValidSubscriptions(store, now)) <==>
            exists s :: s in store && s.userId == userId && s.status == Active && s.expiryDate > now
  {
    var valid := ValidSubscriptions(store, now);
    SubMapKeys(valid, userId);
    if exists s :: s in store && s.userId == userId && s.status == Active && s.expiryDate > now {
      var s :| s in store && s.userId == userId && s.status == Active && s.expiryDate > now;
      assert s in valid;
      var j :| 0 <= j < |valid| && valid[j] == s;
    }
  }

  /** `isPremium` is true iff the collection holds an active, unexpired
      record with the row's user id. */
  lemma PremiumIff(users: seq<UserDoc>, store: seq<Subscription>, now: int, i: int)
    requires 0 <= i < |Rows(users, store, now)|
    ensures Rows(users, store, now)[i].isPremium <==>
      exists s :: s in store && s.userId == Rows(users, store, now)[i].id
                  && s.status == Active && s.expiryDate > now
  {
    ValidKey(store, now, ByCreatedDesc(users)[i].id);
  }

  /** A free row has no expiry and plan "free"; a premium row reports the
      expiry and plan (default "premium") of the LAST valid record with its
      user id. */
  lemma RowReportsLastValid(users: seq<UserDoc>, store: seq<Subscription>, now: int, i: int)
    requires 0 <= i < |Rows(users, store, now)|
    ensures var row := Rows(users, store, now)[i];
      var valid := ValidSubscriptions(store, now);
      && (!row.isPremium ==> row.expiryDate == None && row.plan == "free")
      && (row.isPremium ==>
            exists j :: 0 <= j < |valid| && valid[j].userId == row.id
                        && row.expiryDate == Some(valid[j].expiryDate)
                        && row.plan == PlanLabel(valid[j].plan)
                        && forall k :: j < k < |valid| ==> valid[k].userId != row.id)
  {
    var row := Rows(users, store, now)[i];
    var valid := ValidSubscriptions(store, now);
    if row.isPremium {
      SubMapLastWins(valid, row.id);
    }
  }

  /** The plan reads "free" exactly on the free rows, provided no valid record
      itself names its plan "free". */
  lemma FreePlanIffNotPremium(users: seq<UserDoc>, store: seq<Subscription>, now: int, i: int)
    requires 0 <= i < |Rows(users, store, now)|
    requires forall s :: s in store && IsValid(s, now) ==> s.plan != Some("free")
    ensures Rows(users, store, now)[i].plan == "free" <==> !Rows(users, store, now)[i].isPremium
  {
    var row := Rows(users, store, now)[i];
    var valid := ValidSubscriptions(store, now);
    if row.isPremium {
      SubMapLastWins(valid, row.id);
      var j :| 0 <= j < |valid| && valid[j].userId == row.id && SubMap(valid)[row.id] == valid[j];
      assert valid[j] in store;
    }
  }

  /** Two maps that agree on every key other than `k`. */
  ghost predicate AgreeExcept(m1: map<string, Subscription>, m2: map<string, Subscription>, k: string) {
    forall x :: x != k ==> (x in m1 <==> x in m2) && (x in m1 ==> m1[x] == m2[x])
  }

  /** Laying a map whose only key is `k` between two others changes the
      union at most under `k`. */
  lemma AgreeExceptMiddle(x: map<string, Subscription>, z: map<string, Subscription>,
                          y: map<string, Subscription>, k: string)
    requires z.Keys <= {k}
    ensures AgreeExcept(x + z + y, x + y, k)
  {
  }

  /** `SubMapConcat` for three pieces. */
  lemma SubMapConcat3(a: seq<Subscription>, b: seq<Subscription>, c: seq<Subscription>)
    ensures SubMap(a + b + c) == SubMap(a) + SubMap(b) + SubMap(c)
  {
    SubMapConcat(a + b, c);
    SubMapConcat(a, b);
  }

  /** The map of at most one record has at most that record's key. */
  lemma OneRecordKeys(fo: seq<Subscription>, extra: Subscription)
    requires fo == [] || fo == [extra]
    ensures SubMap(fo).Keys <= {extra.userId}
  {
    if fo == [extra] {
      assert fo[..0] == [];
    }
  }

  /** Inserting one record changes the map at most under that record's user id. */
  lemma InsertedRecordOnlyTouchesItsKey(a: seq<Subscription>, b: seq<Subscription>, extra: Subscription, now: int)
    ensures AgreeExcept(SubMap(ValidSubscriptions(a + [extra] + b, now)),
                        SubMap(ValidSubscriptions(a + b, now)), extra.userId)
  {
    var p := ValidAt(now);
    var fa, fo, fb := Filter(p, a), Filter(p, [extra]), Filter(p, b);
    FilterConcat3(p, a, [extra], b);
    FilterConcat(p, a, b);
    SubMapConcat3(fa, fo, fb);
    SubMapConcat(fa, fb);
    OneRecordKeys(fo, extra);
    AgreeExceptMiddle(SubMap(fa), SubMap(fo), SubMap(fb), extra.userId);
  }

  /** A record whose user id names no user, inserted anywhere in the
      collection, changes no row. */
  lemma OrphanRecordIsIgnored(users: seq<UserDoc>, a: seq<Subscription>, b: seq<Subscription>,
                              orphan: Subscription, now: int)
    requires forall u :: u in users ==> u.id != orphan.userId
    ensures Rows(users, a + [orphan] + b, now) == Rows(users, a + b, now)
  {
    InsertedRecordOnlyTouchesItsKey(a, b, orphan, now);
    var withOrphan := SubMap(ValidSubscriptions(a + [orphan] + b, now));
    var without := SubMap(ValidSubscriptions(a + b, now));
    var sorted := ByCreatedDesc(users);
    forall i | 0 <= i < |sorted|
      ensures Project(sorted[i], withOrphan) == Project(sorted[i], without)
    {
      assert sorted[i] in multiset(users);
      assert sorted[i].id != orphan.userId;
    }
  }
}

=== FILE: auth.dfy ===
/** The credentials sign-in configuration: the `authorize` decision chain,
    the `jwt` and `session` callbacks, and the session lifetime. The hash
    comparison is a parameter: it belongs to the hashing library. */
module Auth {
  import opened Prelude
  import opened Records
  import opened Sessions

  /** The submitted credentials; a `None` field was absent. */
  datatype Credentials = Credentials(email: Option<string>, password: Option<string>)

  /** The user `authorize` returns: no password. */
  datatype AuthUser = AuthUser(id: string, email: string, name: Option<string>)

  /** What the hash comparison does: resolves true, resolves false, or throws. */
  datatype CompareResult = Match | Mismatch | CompareThrew

  /** Which database call throws, if any. */
  datatype AuthFault = NoFault | ConnectFails | LookupFails

  /** `maxAge` of the session and of the token: 30 days in seconds. */
  const SessionMaxAge: int := 30 * 24 * 60 * 60
  const JwtMaxAge: int := 30 * 24 * 60 * 60

  lemma MaxAgesAreThirtyDays()
    ensures SessionMaxAge == JwtMaxAge == 2_592_000
  {
  }

  /** Both credentials are truthy. */
  predicate HasCredentials(credentials: Option<Credentials>) {
    credentials.Some? && Present(credentials.value.email) && Present(credentials.value.password)
  }

  /** `authorize`: null unless both credentials are given, the email names a
      user and the password matches that user's hash; every throw also
      yields null. `compare(password, hash)` is the hash comparison. */
  function Authorize(credentials: Option<Credentials>, users: seq<UserDoc>,
                     compare: (string, string) -> CompareResult, fault: AuthFault): (r: Option<AuthUser>)
    ensures r.Some? <==>
      HasCredentials(credentials) && fault == NoFault
      && FindUserByEmail(users, credentials.value.email.value).Some?
      && compare(credentials.value.password.value,
                 FindUserByEmail(users, credentials.value.email.value).value.password) == Match
    ensures r.Some? ==>
      exists u :: u in users && u.email == credentials.value.email.value
                  && compare(credentials.value.password.value, u.password) == Match
                  && r.value == AuthUser(u.id, u.email, u.name)
    ensures r.Some? ==>
      var u := FindUserByEmail(users, credentials.value.email.value).value;
      r.value == AuthUser(u.id, u.email, u.name)
  {
    if !HasCredentials(credentials) then None
    else if fault != NoFault then None
    else
      var email := credentials.value.email.value;
      match FindUserByEmail(users, email)
      case None => None
      case Some(user) =>
        if compare(credentials.value.password.value, user.password) == Match
        then Some(AuthUser(user.id, user.email, user.name))
        else None
  }

  /** With several users sharing the email, the one signed in is the first
      of them in collection order, the one `findOne` returns. */
  lemma AuthorizeReturnsFirstMatch(credentials: Option<Credentials>, users: seq<UserDoc>,
                                   compare: (string, string) -> CompareResult, fault: AuthFault)
    requires Authorize(credentials, users, compare, fault).Some?
    ensures var email := credentials.value.email.value;
      exists i :: 0 <= i < |users| && users[i].email == email
        && Authorize(credentials, users, compare, fault).value == AuthUser(users[i].id, users[i].email, users[i].name)
        && forall k :: 0 <= k < i ==> users[k].email != email
  {
    var email := credentials.value.email.value;
    FindUserIsFirst(users, EmailField, email);
    var u := FindUser(users, EmailField, email).value;
    var i :| 0 <= i < |users| && users[i] == u
      && forall k :: 0 <= k < i ==> FieldOf(users[k], EmailField) != email;
    assert users[i].email == email;
  }

  /** Missing credentials yield null without looking at the database: the
      answer is the same for every user collection, comparison and fault. */
  lemma MissingCredentialsNeedNoLookup(credentials: Option<Credentials>,
                                       users1: seq<UserDoc>, compare1: (string, string) -> CompareResult, fault1: AuthFault,
                                       users2: seq<UserDoc>, compare2: (string, string) -> CompareResult, fault2: AuthFault)
    requires !HasCredentials(credentials)
    ensures Authorize(credentials, users1, compare1, fault1) == None
    ensures Authorize(credentials, users1, compare1, fault1) == Authorize(credentials, users2, compare2, fault2)
  {
  }

  /** An unknown email, a failed comparison or any throw yields null. */
  lemma RejectionCases(email: string, password: string, users: seq<UserDoc>,
                       compare: (string, string) -> CompareResult, fault: AuthFault)
    requires email != "" && password != ""
    ensures (forall u :: u in users ==> u.email != email) ==>
      Authorize(Some(Credentials(Some(email), Some(password))), users, compare, fault) == None
    ensures (forall u :: u in users && u.email == email ==> compare(password, u.password) != Match) ==>
      Authorize(Some(Credentials(Some(email), Some(password))), users, compare, fault) == None
    ensures fault != NoFault ==>
      Authorize(Some(Credentials(Some(email), Some(password))), users, compare, fault) == None
  {
  }

  /** The token; `id` is the claim the callbacks manage, the others are the
      claims the library fills in. */
  datatype Token = Token(id: Option<string>, sub: Option<string>, name: Option<string>, email: Option<string>)

  /** The `jwt` callback: copies the signed-in user's id into the token when
      a user is present, and returns the token unchanged otherwise. */
  function JwtCallback(token: Token, user: Option<AuthUser>): (t: Token)
    ensures user.Some? ==> t.id == Some(user.value.id)
    ensures user.None? ==> t == token
    ensures t.sub == token.sub && t.name == token.name && t.email == token.email
  {
    if user.Some? then token.(id := Some(user.value.id)) else token
  }

  /** The `session` callback: when the session has a user, its id becomes the
      token's id (absent when the token has none); nothing else changes. */
  function SessionCallback(session: Session, token: Token): (s: Session)
    ensures session.user.None? ==> s == session
    ensures session.user.Some? ==>
      s.user.Some? && s.user.value.id == token.id
      && s.user.value.name == session.user.value.name && s.user.value.email == session.user.value.email
    ensures s.expires == session.expires
  {
    match session.user
    case None => session
    case Some(u) => session.(user := Some(u.(id := token.id)))
  }

  /** After a successful sign-in the token carries the user's id from then
      on, so every later session built from it names that user. */
  lemma SignInIdReachesSession(credentials: Option<Credentials>, users: seq<UserDoc>,
                               compare: (string, string) -> CompareResult,
                               token: Token, session: Session)
    requires Authorize(credentials, users, compare, NoFault).Some?
    requires session.user.Some?
    ensures var signedIn := JwtCallback(token, Authorize(credentials, users, compare, NoFault));
      var refreshed := JwtCallback(signedIn, None);
      SessionCallback(session, refreshed).user.value.id
        == Some(FindUserByEmail(users, credentials.value.email.value).value.id)
  {
  }
}

=== FILE: bottom_nav.dfy ===
/** The mobile bottom navigation: which item is highlighted for the current
    path, the labels that depend on the session status, and the avatar
    initial shown in the account sheet. */
module BottomNav {
  import opened Prelude
  import opened JsString
  import opened Sessions

  datatype NavItem = NavItem(href: string, title: string)

  /** `navItems`, in display order. */
  const NavItems: seq<NavItem> := [NavItem("/", "Home"), NavItem("/form1234-notes", "Notes"), NavItem("/kcse", "KCSE")]

  /** `isActive(href)`: the home link only on "/" itself, every other link
      on any path that starts with it. */
  predicate IsActive(pathname: string, href: string)
    ensures IsActive(pathname, href) ==> |href| <= |pathname| && pathname[..|href|] == href
    ensures href == "/" ==> (IsActive(pathname, href) <==> pathname == "/")
  {
    if href == "/" then pathname == "/" else StartsWith(pathname, href)
  }

  /** A non-home link is active exactly on its own path and every extension
      of it, with no regard to path segments. */
  lemma ActiveIffExtension(pathname: string, href: string)
    requires href != "/"
    ensures IsActive(pathname, href) <==> exists rest :: pathname == href + rest
  {
    if StartsWith(pathname, href) {
      assert pathname == href + pathname[|href|..];
    }
    if exists rest :: pathname == href + rest {
      var rest :| pathname == href + rest;
      assert pathname[..|href|] == href;
    }
  }

  /** "/kcse" stays highlighted on "/kcse2024", which is not below it as a
      path; the home link is highlighted only on "/". */
  lemma PrefixNotSegmentAware()
    ensures IsActive("/kcse2024", "/kcse")
    ensures IsActive("/kcse", "/kcse")
    ensures !IsActive("/kcse2024", "/")
    ensures !IsActive("/notes", "/")
  {
  }

  /** On any path at most one item is highlighted: no two items are active
      together. */
  lemma AtMostOneActive(pathname: string)
    ensures forall i, j :: 0 <= i < j < |NavItems| ==>
      !(IsActive(pathname, NavItems[i].href) && IsActive(pathname, NavItems[j].href))
  {
    forall i, j | 0 <= i < j < |NavItems|
      ensures !(IsActive(pathname, NavItems[i].href) && IsActive(pathname, NavItems[j].href))
    {
      var href := NavItems[j].href;
      if IsActive(pathname, href) {
        assert pathname[..|href|] == href;
        assert pathname[1] == href[1];
      }
    }
  }

  /** The profile button's label. */
  function ProfileLabel(status: SessionStatus): (text: string)
    ensures text == "Account" <==> status == Authenticated
    ensures text == "Login" <==> status != Authenticated
  {
    if status == Authenticated then "Account" else "Login"
  }

  /** The account sheet's header. */
  function SheetHeader(status: SessionStatus): (header: string)
    ensures header == "My Account" <==> status == Authenticated
    ensures header == "Welcome" <==> status != Authenticated
  {
    if status == Authenticated then "My Account" else "Welcome"
  }

  /** The button and the sheet always agree on whether the user is signed in;
      a session still loading reads as signed out. */
  lemma LabelsAgree(status: SessionStatus)
    ensures ProfileLabel(status) == "Account" <==> SheetHeader(status) == "My Account"
    ensures status == Loading ==> ProfileLabel(status) == "Login" && SheetHeader(status) == "Welcome"
  {
  }

  /** `session?.user?.name?.charAt(0) || 'U'`. */
  function AvatarInitial(session: Option<Session>): (initial: string)
    ensures |initial| == 1
    ensures var name := if session.Some? && session.value.user.Some? then session.value.user.value.name else None;
      (Present(name) ==> initial == [name.value[0]]) && (!Present(name) ==> initial == "U")
  {
    match session
    case None => "U"
    case Some(s) =>
      match s.user
      case None => "U"
      case Some(u) =>
        match u.name
        case None => "U"
        case Some(name) => if |name| > 0 then [name[0]] else "U"
  }
}

=== FILE: folder_listing.dfy ===
/** The document-listing logic shared by the assignments page and the set-book
    guides page: fetch every configured folder (a failed folder contributes
    nothing), filter the loaded files by a search query, group them by
    folder sorted by name, and render the groups in configuration order. The
    folder fetch and the name collation are parameters. */
module FolderListing {
  import opened Prelude
  import opened JsString

  /** A file as the listing endpoint returns it; `folderId` is added on load. */
  datatype DriveFile = DriveFile(id: string, name: string, webViewLink: string, mimeType: string,
                                 folderId: Option<string>)

  datatype Folder = Folder(id: string, name: string)

  /** What fetching one folder yields: its files, or the error message. */
  datatype FetchResult = Loaded(files: seq<DriveFile>) | FetchFailed(message: string)

  /** One page: its folders in declaration order and its fixed texts. */
  datatype Listing = Listing(folders: seq<Folder>, loadFailure: string, noMatchPrefix: string, noFiles: string)

  /** `ASSIGNMENT_FOLDERS` and the assignments page's texts. */
  const Assignments := Listing(
    [Folder("14QQQPHK-0ltcGH95OJEqpssTL9PVGdXi", "2024 AUGUST HOLIDAY ASSIGNMENTS"),
     Folder("1b5WplAKi8iU-rsWKb6_WIJQpCnx3GwU1", "2024 APRIL HOLIDAY ASSIGNMENTS"),
     Folder("16fdWwikTK60bK5YaGJpUvC8cHmNYt8-c", "2020 FORM 1-4 ASSIGNMENTS (Revision)")],
    "Failed to load assignments. Please try again later.",
    "No assignments found matching ",
    "No assignments available at the moment.")

  /** `SETBOOK_FOLDERS` and the set-book page's texts. */
  const SetBooks := Listing(
    [Folder("127baQy13U9u3NoV33ywrRGBuEpb1CM-g", "ENGLISH SET BOOKS GUIDES"),
     Folder("1ZMRr0-Tf5gHb5V_SGN6ipR2hvMEwD28P", "ENGLISH SET BOOKS NOTES")],
    "Failed to load set books. Please try again later.",
    "No guides found matching ",
    "No study guides available at the moment.")

  /** `files.map(f => ({ ...f, folderId }))`. */
  function Tagged(files: seq<DriveFile>, folderId: string): (r: seq<DriveFile>)
    ensures |r| == |files|
    ensures forall i :: 0 <= i < |r| ==> r[i] == files[i].(folderId := Some(folderId))
  {
    seq(|files|, i requires 0 <= i < |files| => files[i].(folderId := Some(folderId)))
  }

  /** The entries `errors.push` collects: "name: message" for each failed
      folder, in configuration order. */
  function FailureMessages(folders: seq<Folder>, fetch: string -> FetchResult): seq<string>
  {
    if |folders| == 0 then []
    else
      var last := folders[|folders| - 1];
      FailureMessages(folders[..|folders| - 1], fetch)
        + match fetch(last.id)
          case FetchFailed(message) => [last.name + ": " + message]
          case Loaded(_) => []
  }

  /** One message per failed folder: there are some iff some folder failed. */
  lemma {:induction false} FailureMessagesCount(folders: seq<Folder>, fetch: string -> FetchResult)
    ensures |FailureMessages(folders, fetch)| <= |folders|
    ensures |FailureMessages(folders, fetch)| > 0 <==>
      exists j :: 0 <= j < |folders| && fetch(folders[j].id).FetchFailed?
  {
    if |folders| > 0 {
      var front := folders[..|folders| - 1];
      FailureMessagesCount(front, fetch);
      if exists j :: 0 <= j < |front| && fetch(front[j].id).FetchFailed? {
        var j :| 0 <= j < |front| && fetch(front[j].id).FetchFailed?;
        assert folders[j] == front[j];
      }
      if exists j :: 0 <= j < |folders| && fetch(folders[j].id).FetchFailed? {
        var j :| 0 <= j < |folders| && fetch(folders[j].id).FetchFailed?;
        if j < |front| {
          assert front[j] == folders[j];
        }
      }
    }
  }

  /** With the loaded folders keyed by id, nothing loaded while some folder
      failed exactly when there is a folder and every one failed. */
  lemma NothingLoadedIffAllFailed(folders: seq<Folder>, fetch: string -> FetchResult,
                                  allFiles: map<string, seq<DriveFile>>)
    requires forall k :: k in allFiles <==>
      (exists j :: 0 <= j < |folders| && folders[j].id == k) && fetch(k).Loaded?
    ensures allFiles == map[] && |FailureMessages(folders, fetch)| > 0 <==>
      |folders| > 0 && forall j :: 0 <= j < |folders| ==> fetch(folders[j].id).FetchFailed?
  {
    FailureMessagesCount(folders, fetch);
    if allFiles == map[] {
      forall j | 0 <= j < |folders|
        ensures fetch(folders[j].id).FetchFailed?
      {
        assert folders[j].id !in allFiles;
      }
      if |folders| > 0 {
        assert fetch(folders[0].id).FetchFailed?;
      }
    } else {
      var k :| k in allFiles;
      var j :| 0 <= j < |folders| && folders[j].id == k;
      assert fetch(folders[j].id).Loaded?;
    }
  }

  /** `fetchAllFolders`: one fetch per folder in order. Loaded folders are
      stored under their id with every file tagged with that id; failed
      folders are only counted as errors. The page error is set iff nothing
      loaded and something failed, i.e. iff every folder failed. */
  method FetchAllFolders(listing: Listing, fetch: string -> FetchResult)
    returns (allFiles: map<string, seq<DriveFile>>, errors: seq<string>, error: Option<string>)
    ensures forall k :: k in allFiles <==>
      (exists j :: 0 <= j < |listing.folders| && listing.folders[j].id == k) && fetch(k).Loaded?
    ensures forall k :: k in allFiles ==> allFiles[k] == Tagged(fetch(k).files, k)
    ensures forall k, f :: k in allFiles && f in allFiles[k] ==> f.folderId == Some(k)
    ensures errors == FailureMessages(listing.folders, fetch)
    ensures |errors| <= |listing.folders|
    ensures |errors| > 0 <==> exists j :: 0 <= j < |listing.folders| && fetch(listing.folders[j].id).FetchFailed?
    ensures error.Some? <==> allFiles == map[] && |errors| > 0
    ensures error.Some? <==>
      |listing.folders| > 0 && forall j :: 0 <= j < |listing.folders| ==> fetch(listing.folders[j].id).FetchFailed?
    ensures error.Some? ==> error.value == listing.loadFailure
  {
    var folders := listing.folders;
    allFiles := map[];
    errors := [];
    var i := 0;
    while i < |folders|
      invariant 0 <= i <= |folders|
      invariant forall k :: k in allFiles <==> (exists j :: 0 <= j < i && folders[j].id == k) && fetch(k).Loaded?
      invariant forall k :: k in allFiles ==> allFiles[k] == Tagged(fetch(k).files, k)
      invariant errors == FailureMessages(folders[..i], fetch)
    {
      var folder := folders[i];
      match fetch(folder.id) {
        case FetchFailed(message) =>
          errors := errors + [folder.name + ": " + message];
        case Loaded(files) =>
          allFiles := allFiles[folder.id := Tagged(files, folder.id)];
      }
      assert folders[..i + 1][..i] == folders[..i];
      i := i + 1;
    }
    assert folders[..i] == folders;
    FailureMessagesCount(folders, fetch);
    NothingLoadedIffAllFailed(folders, fetch, allFiles);
    error := if allFiles == map[] && |errors| > 0 then Some(listing.loadFailure) else None;
  }

  /** `searchQuery.toLowerCase().trim().split(' ')`. */
  function SearchTerms(query: string): (terms: seq<string>)
    ensures |terms| >= 1
    ensures forall i :: 0 <= i < |terms| ==> ' ' !in terms[i]
    ensures Trim(ToLower(query)) == "" ==> terms == [""]
  {
    Split(Trim(ToLower(query)), ' ')
  }

  /** The file filter: everything when the raw query is empty, otherwise the
      files whose lower-cased name includes every search term. */
  predicate Matches(file: DriveFile, query: string)
    ensures query == "" ==> Matches(file, query)
    ensures Matches(file, query) && query != "" ==>
      forall i :: 0 <= i < |SearchTerms(query)| ==> |SearchTerms(query)[i]| <= |file.name|
  {
    query == "" || IncludesAll(ToLower(file.name), SearchTerms(query))
  }

  /** `terms.every(term => name.includes(term))`. */
  predicate IncludesAll(name: string, terms: seq<string>) {
    forall i :: 0 <= i < |terms| ==> Includes(name, terms[i])
  }

  /** The comparator `(a, b) => a.name.localeCompare(b.name) <= 0`, given the
      collation `precedes` on names. */
  function ByName(precedes: (string, string) -> bool): (DriveFile, DriveFile) -> bool {
    (a: DriveFile, b: DriveFile) => precedes(a.name, b.name)
  }

  /** A total collation of names orders files totally. */
  lemma ByNameTotal(precedes: (string, string) -> bool)
    ensures Total(precedes) ==> Total(ByName(precedes))
  {
    if Total(precedes) {
      forall a: DriveFile, b: DriveFile
        ensures ByName(precedes)(a, b) || ByName(precedes)(b, a)
      {
        assert precedes(a.name, b.name) || precedes(b.name, a.name);
      }
    }
  }

  /** The files of one folder that match the query, in folder order. */
  function Matching(files: seq<DriveFile>, query: string): seq<DriveFile> {
    Filter(Keep(query), files)
  }

  /** `Matches` as the callback handed to `filter`. */
  function Keep(query: string): DriveFile -> bool {
    (f: DriveFile) => Matches(f, query)
  }

  /** One folder's group: its matching files sorted by name, a sub-multiset
      of the folder's files. */
  function Group(files: seq<DriveFile>, query: string, precedes: (string, string) -> bool): (g: seq<DriveFile>)
    ensures |g| == |Matching(files, query)|
    ensures multiset(g) <= multiset(files)
    ensures forall f :: f in g <==> f in files && Matches(f, query)
    ensures |g| > 0 <==> exists f :: f in files && Matches(f, query)
    ensures Total(precedes) ==> SortedBy(ByName(precedes), g)
  {
    ByNameTotal(precedes);
    SortFilterMembers(ByName(precedes), Keep(query), files);
    var g := Sort(ByName(precedes), Matching(files, query));
    assert |g| > 0 ==> g[0] in g;
    g
  }

  /** `filteredGroups`: for each loaded folder with at least one matching
      file, its group. */
  function FilteredGroups(allFiles: map<string, seq<DriveFile>>, query: string,
                          precedes: (string, string) -> bool): (groups: map<string, seq<DriveFile>>)
    ensures forall k :: k in groups <==> k in allFiles && exists f :: f in allFiles[k] && Matches(f, query)
    ensures forall k :: k in groups ==> groups[k] == Group(allFiles[k], query, precedes) && |groups[k]| > 0
  {
    map k | k in allFiles && |Group(allFiles[k], query, precedes)| > 0 :: Group(allFiles[k], query, precedes)
  }

  /** An empty query keeps every file of every loaded folder that has any. */
  lemma EmptyQueryKeepsEveryFile(allFiles: map<string, seq<DriveFile>>, precedes: (string, string) -> bool)
    ensures var groups := FilteredGroups(allFiles, "", precedes);
      forall k :: k in allFiles && |allFiles[k]| > 0 ==> k in groups && multiset(groups[k]) == multiset(allFiles[k])
  {
    forall k | k in allFiles && |allFiles[k]| > 0
      ensures Matching(allFiles[k], "") == allFiles[k]
    {
      FilterKeepsAll((f: DriveFile) => Matches(f, ""), allFiles[k]);
    }
  }

  /** The filter stated by positions: with a non-empty query, every search
      term starts at some offset of the lower-cased name. */
  lemma MatchesIffTermsOccur(file: DriveFile, query: string)
    requires query != ""
    ensures Matches(file, query) <==>
      forall i :: 0 <= i < |SearchTerms(query)| ==> OccursAt(ToLower(file.name), SearchTerms(query)[i])
  {
    var name, terms := ToLower(file.name), SearchTerms(query);
    forall i | 0 <= i < |terms|
      ensures Includes(name, terms[i]) <==> OccursAt(name, terms[i])
    {
      IncludesAt(name, terms[i]);
    }
    assert Matches(file, query) <==> IncludesAll(name, terms);
  }

  /** A query of only whitespace keeps every file: it trims to one empty
      term, which every name includes. */
  lemma BlankQueryMatchesEverything(query: string, file: DriveFile)
    requires forall i :: 0 <= i < |query| ==> IsWhitespace(query[i])
    ensures Matches(file, query)
  {
    var lower := ToLower(query);
    BlankTrimsToEmpty(lower);
    assert SearchTerms(query) == [""];
    assert StartsWith(ToLower(file.name), "");
  }

  /** A query without whitespace has one search term: itself, lower-cased. */
  lemma OneWordTerms(query: string)
    requires forall i :: 0 <= i < |query| ==> !IsWhitespace(query[i])
    ensures SearchTerms(query) == [ToLower(query)]
  {
    var lower := ToLower(query);
    forall i | 0 <= i < |lower|
      ensures !IsWhitespace(lower[i]) && lower[i] != ' '
    {
      assert !IsWhitespace(query[i]);
    }
    TrimWithoutWhitespace(lower);
    SplitJoin([lower], ' ');
  }

  /** A one-word query (no whitespace in it) keeps exactly the files whose
      lower-cased name includes the lower-cased word. */
  lemma OneWordQuery(query: string, file: DriveFile)
    requires query != ""
    requires forall i :: 0 <= i < |query| ==> !IsWhitespace(query[i])
    ensures Matches(file, query) <==> Includes(ToLower(file.name), ToLower(query))
  {
    OneWordTerms(query);
    assert [ToLower(query)][0] == ToLower(query);
  }

  /** The search terms are the space-free pieces of the trimmed, lower-cased
      query: joined with single spaces they give it back. */
  lemma SearchTermsRejoin(query: string)
    ensures Join(SearchTerms(query), ' ') == Trim(ToLower(query))
    ensures forall i :: 0 <= i < |SearchTerms(query)| ==> ' ' !in SearchTerms(query)[i]
  {
    JoinSplit(Trim(ToLower(query)), ' ');
  }

  /** One rendered folder: its title and its files. */
  datatype Section = Section(folderId: string, title: string, files: seq<DriveFile>)

  /** The section a folder would render, empty when the folder has no group. */
  function SectionOf(folder: Folder, groups: map<string, seq<DriveFile>>): Section {
    Section(folder.id, folder.name, if folder.id in groups then groups[folder.id] else [])
  }

  /** The render pass: folders in configuration order, skipping those whose
      group is absent or empty. */
  function Sections(folders: seq<Folder>, groups: map<string, seq<DriveFile>>): (r: seq<Section>)
    ensures IsSubsequence(r, seq(|folders|, i requires 0 <= i < |folders| => SectionOf(folders[i], groups)))
    ensures forall s :: s in r ==> |s.files| > 0
  {
    Filter((s: Section) => |s.files| > 0,
           seq(|folders|, i requires 0 <= i < |folders| => SectionOf(folders[i], groups)))
  }

  /** A configured folder is rendered iff it has a non-empty group. */
  lemma SectionShownIff(folders: seq<Folder>, groups: map<string, seq<DriveFile>>, j: int)
    requires 0 <= j < |folders|
    ensures SectionOf(folders[j], groups) in Sections(folders, groups) <==>
            folders[j].id in groups && |groups[folders[j].id]| > 0
  {
    var all := seq(|folders|, i requires 0 <= i < |folders| => SectionOf(folders[i], groups));
    assert all[j] == SectionOf(folders[j], groups);
  }

  /** The notice shown below the groups when nothing matched and no error is
      displayed, quoting the query when there is one. */
  function EmptyNotice(listing: Listing, error: Option<string>, groups: map<string, seq<DriveFile>>,
                       query: string): (notice: Option<string>)
    ensures notice.Some? <==> error.None? && groups == map[]
    ensures notice.Some? && query == "" ==> notice.value == listing.noFiles
    ensures notice.Some? && query != "" ==>
      notice.value == listing.noMatchPrefix + "\"" + query + "\""
  {
    if error.None? && groups.Keys == {} then
      Some(if query != "" then listing.noMatchPrefix + "\"" + query + "\"" else listing.noFiles)
    else None
  }

  /** The notice appears only when no section is rendered. */
  lemma NoticeOnlyWhenNothingRendered(listing: Listing, error: Option<string>,
                                      groups: map<string, seq<DriveFile>>, query: string)
    requires EmptyNotice(listing, error, groups, query).Some?
    ensures Sections(listing.folders, groups) == []
  {
  }

  /** Loading the assignments page: the error appears iff all three folders failed. */
  method LoadAssignments(fetch: string -> FetchResult)
    returns (allFiles: map<string, seq<DriveFile>>, error: Option<string>)
    ensures error.Some? <==>
      fetch("14QQQPHK-0ltcGH95OJEqpssTL9PVGdXi").FetchFailed?
      && fetch("1b5WplAKi8iU-rsWKb6_WIJQpCnx3GwU1").FetchFailed?
      && fetch("16fdWwikTK60bK5YaGJpUvC8cHmNYt8-c").FetchFailed?
    ensures error.Some? ==> error == Some("Failed to load assignments. Please try again later.")
    ensures forall k :: k in allFiles ==> fetch(k).Loaded? && allFiles[k] == Tagged(fetch(k).files, k)
  {
    var errors;
    allFiles, errors, error := FetchAllFolders(Assignments, fetch);
    var ids := Assignments.folders;
    assert ids[0].id == "14QQQPHK-0ltcGH95OJEqpssTL9PVGdXi";
    assert ids[1].id == "1b5WplAKi8iU-rsWKb6_WIJQpCnx3GwU1";
    assert ids[2].id == "16fdWwikTK60bK5YaGJpUvC8cHmNYt8-c";
  }

  /** Loading the set-book page: the error appears iff both folders failed. */
  method LoadSetBooks(fetch: string -> FetchResult)
    returns (allFiles: map<string, seq<DriveFile>>, error: Option<string>)
    ensures error.Some? <==>
      fetch("127baQy13U9u3NoV33ywrRGBuEpb1CM-g").FetchFailed?
      && fetch("1ZMRr0-Tf5gHb5V_SGN6ipR2hvMEwD28P").FetchFailed?
    ensures error.Some? ==> error == Some("Failed to load set books. Please try again later.")
    ensures forall k :: k in allFiles ==> fetch(k).Loaded? && allFiles[k] == Tagged(fetch(k).files, k)
  {
    var errors;
    allFiles, errors, error := FetchAllFolders(SetBooks, fetch);
    var ids := SetBooks.folders;
    assert ids[0].id == "127baQy13U9u3NoV33ywrRGBuEpb1CM-g";
    assert ids[1].id == "1ZMRr0-Tf5gHb5V_SGN6ipR2hvMEwD28P";
  }
}

=== FILE: js_string.dfy ===
/** The JavaScript string operations the pages and handlers rely on:
    `toLowerCase`, `trim`, `split` on a one-character separator,
    `includes` and `startsWith`. Strings are sequences of characters. */
module JsString {

  /** Lower-cases one character; only the ASCII letters A-Z change. */
  function LowerChar(c: char): (d: char)
    ensures 'A' <= c <= 'Z' ==> 'a' <= d <= 'z' && d as int == c as int + 32
    ensures !('A' <= c <= 'Z') ==> d == c
  {
    if 'A' <= c <= 'Z' then (c as int + 32) as char else c
  }

  /** `s.toLowerCase()`, character by character. */
  function ToLower(s: string): (r: string)
    ensures |r| == |s|
    ensures forall i :: 0 <= i < |s| ==> r[i] == LowerChar(s[i])
  {
    seq(|s|, i requires 0 <= i < |s| => LowerChar(s[i]))
  }

  /** The characters `String.prototype.trim` removes: the WhiteSpace and
      LineTerminator code points of section 12.2 and 12.3 of ECMA-262. */
  predicate IsWhitespace(c: char) {
    c == '\t' || c == '\n' || c == '\U{B}' || c == '\U{C}' || c == '\r' || c == ' '
    || c == '\U{A0}' || c == '\U{1680}' || ('\U{2000}' <= c <= '\U{200A}')
    || c == '\U{2028}' || c == '\U{2029}' || c == '\U{202F}' || c == '\U{205F}'
    || c == '\U{3000}' || c == '\U{FEFF}'
  }

  /** Drops the leading whitespace. */
  function TrimStart(s: string): (r: string)
    ensures |r| <= |s| && r == s[|s| - |r|..]
    ensures forall i :: 0 <= i < |s| - |r| ==> IsWhitespace(s[i])
    ensures |r| > 0 ==> !IsWhitespace(r[0])
    decreases |s|
  {
    if |s| > 0 && IsWhitespace(s[0]) then TrimStart(s[1..]) else s
  }

  /** Drops the trailing whitespace. */
  function TrimEnd(s: string): (r: string)
    ensures |r| <= |s| && r == s[..|r|]
    ensures forall i :: |r| <= i < |s| ==> IsWhitespace(s[i])
    ensures |r| > 0 ==> !IsWhitespace(r[|r| - 1])
    decreases |s|
  {
    if |s| > 0 && IsWhitespace(s[|s| - 1]) then TrimEnd(s[..|s| - 1]) else s
  }

  /** How many leading whitespace characters `trim` removes. */
  function Leading(s: string): (k: nat)
    ensures k <= |s|
  {
    |s| - |TrimStart(s)|
  }

  /** `s.trim()`: the slice of `s` after its leading and before its trailing
      whitespace; the slice neither starts nor ends with whitespace. */
  function Trim(s: string): (r: string)
    ensures Leading(s) + |r| <= |s| && r == s[Leading(s)..Leading(s) + |r|]
    ensures forall i :: 0 <= i < Leading(s) ==> IsWhitespace(s[i])
    ensures forall i :: Leading(s) + |r| <= i < |s| ==> IsWhitespace(s[i])
    ensures |r| > 0 ==> !IsWhitespace(r[0]) && !IsWhitespace(r[|r| - 1])
  {
    TrimEnd(TrimStart(s))
  }

  /** Trimming a string made only of whitespace leaves nothing. */
  lemma BlankTrimsToEmpty(s: string)
    requires forall i :: 0 <= i < |s| ==> IsWhitespace(s[i])
    ensures Trim(s) == ""
  {
  }

  /** A string without whitespace is its own trim. */
  lemma TrimWithoutWhitespace(s: string)
    requires forall i :: 0 <= i < |s| ==> !IsWhitespace(s[i])
    ensures Trim(s) == s
  {
    assert TrimStart(s) == s;
    assert TrimEnd(s) == s;
  }

  /** `s.split(sep)` for a one-character separator: the pieces between
      separators, including the empty ones; `"".split(sep)` is `[""]`. */
  function Split(s: string, sep: char): (parts: seq<string>)
    ensures |parts| >= 1
    ensures forall i :: 0 <= i < |parts| ==> sep !in parts[i]
  {
    if |s| == 0 then [""]
    else
      var rest := Split(s[1..], sep);
      if s[0] == sep then [""] + rest
      else [[s[0]] + rest[0]] + rest[1..]
  }

  /** `parts.join(sep)`. */
  function Join(parts: seq<string>, sep: char): string
    requires |parts| >= 1
  {
    if |parts| == 1 then parts[0] else parts[0] + [sep] + Join(parts[1..], sep)
  }

  /** Joining the pieces of a split gives back the original string. */
  lemma {:induction false} JoinSplit(s: string, sep: char)
    ensures Join(Split(s, sep), sep) == s
  {
    if |s| > 0 {
      JoinSplit(s[1..], sep);
      var rest := Split(s[1..], sep);
      if s[0] == sep {
        assert ([""] + rest)[1..] == rest;
      } else {
        var parts := [[s[0]] + rest[0]] + rest[1..];
        if |rest| > 1 {
          assert parts[1..] == rest[1..];
          assert Join(rest, sep) == rest[0] + [sep] + Join(rest[1..], sep);
        }
        assert s == [s[0]] + s[1..];
      }
    }
  }

  /** Splitting `p + t` where `p` has no separator glues `p` onto the first piece of `t`. */
  lemma {:induction false} SplitPrefix(p: string, t: string, sep: char)
    requires sep !in p
    ensures Split(p + t, sep) == [p + Split(t, sep)[0]] + Split(t, sep)[1..]
  {
    if |p| > 0 {
      assert (p + t)[1..] == p[1..] + t;
      assert (p + t)[0] == p[0];
      SplitPrefix(p[1..], t, sep);
      assert [p[0]] + (p[1..] + Split(t, sep)[0]) == p + Split(t, sep)[0];
    } else {
      assert p + t == t;
      var parts := Split(t, sep);
      assert "" + parts[0] == parts[0];
      assert [parts[0]] + parts[1..] == parts;
    }
  }

  /** Splitting a join of separator-free pieces gives back the pieces. */
  lemma {:induction false} SplitJoin(parts: seq<string>, sep: char)
    requires |parts| >= 1
    requires forall i :: 0 <= i < |parts| ==> sep !in parts[i]
    ensures Split(Join(parts, sep), sep) == parts
  {
    if |parts| == 1 {
      SplitPrefix(parts[0], "", sep);
      assert parts[0] + "" == parts[0];
    } else {
      var rest := Join(parts[1..], sep);
      SplitJoin(parts[1..], sep);
      assert parts[0] + [sep] + rest == parts[0] + ([sep] + rest);
      SplitPrefix(parts[0], [sep] + rest, sep);
      assert ([sep] + rest)[1..] == rest;
      assert Split([sep] + rest, sep) == [""] + parts[1..];
      assert parts[0] + "" == parts[0];
      assert parts == [parts[0]] + parts[1..];
    }
  }

  /** `s.startsWith(prefix)`. */
  predicate StartsWith(s: string, prefix: string) {
    |prefix| <= |s| && s[..|prefix|] == prefix
  }

  /** `s.includes(t)`: `t` occurs in `s`, scanning from the left. */
  predicate Includes(s: string, t: string)
    decreases |s|
    ensures Includes(s, t) ==> |t| <= |s|
  {
    StartsWith(s, t) || (|s| > 0 && Includes(s[1..], t))
  }

  /** `t` starts at some offset of `s`. */
  predicate OccursAt(s: string, t: string) {
    exists k :: 0 <= k <= |s| && StartsWith(s[k..], t)
  }

  /** `includes` holds exactly when `t` starts at some position of `s`. */
  lemma {:induction false} IncludesAt(s: string, t: string)
    ensures Includes(s, t) <==> OccursAt(s, t)
  {
    assert s[0..] == s;
    if |s| > 0 {
      IncludesAt(s[1..], t);
      if Includes(s[1..], t) {
        var i :| 0 <= i <= |s| - 1 && StartsWith(s[1..][i..], t);
        assert s[1..][i..] == s[i + 1..];
      }
      if exists i :: 0 <= i <= |s| && StartsWith(s[i..], t) {
        var i :| 0 <= i <= |s| && StartsWith(s[i..], t);
        if i > 0 {
          assert s[1..][i - 1..] == s[i..];
          assert StartsWith(s[1..][i - 1..], t);
        }
      }
    }
  }
}

=== FILE: prelude.dfy ===
/** Shared vocabulary: optional values, order-preserving filtering and a
    stable sort, the two sequence operations every handler and page uses. */
module Prelude {

  /** A value that may be absent: `undefined`/`null` in the original code. */
  datatype Option<+T> = None | Some(value: T) {
    /** The carried value, or `default` when absent (`x ?? default`). */
    function GetOr(default: T): T {
      match this
      case Some(v) => v
      case None => default
    }
  }

  /** A truthy string field: present and not empty, as `if (!field)` tests it. */
  predicate Present(field: Option<string>) {
    field.Some? && field.value != ""
  }

  /** `a` is `b` with zero or more elements dropped, the rest kept in order. */
  predicate IsSubsequence<T(==)>(a: seq<T>, b: seq<T>)
    decreases |b|
  {
    if |a| == 0 then true
    else if |b| == 0 then false
    else (a[0] == b[0] && IsSubsequence(a[1..], b[1..])) || IsSubsequence(a, b[1..])
  }

  /** `Array.prototype.filter`: the elements satisfying `p`, in their original order. */
  function Filter<T(!new)>(p: T -> bool, s: seq<T>): (r: seq<T>)
    ensures |r| <= |s|
    ensures forall x :: x in r <==> x in s && p(x)
    ensures multiset(r) <= multiset(s)
    ensures forall x :: multiset(r)[x] == if p(x) then multiset(s)[x] else 0
    ensures IsSubsequence(r, s)
  {
    if |s| == 0 then []
    else
      var rest := Filter(p, s[1..]);
      assert s == [s[0]] + s[1..];
      assert multiset(s) == multiset{s[0]} + multiset(s[1..]);
      if p(s[0]) then
        var r := [s[0]] + rest;
        assert r[1..] == rest;
        assert multiset(r) == multiset{s[0]} + multiset(rest);
        r
      else rest
  }

  /** Filtering with a predicate every element satisfies keeps everything. */
  lemma {:induction false} FilterKeepsAll<T(!new)>(p: T -> bool, s: seq<T>)
    requires forall x :: x in s ==> p(x)
    ensures Filter(p, s) == s
  {
    if |s| > 0 {
      FilterKeepsAll(p, s[1..]);
    }
  }

  /** Filtering distributes over concatenation. */
  lemma {:induction false} FilterConcat<T(!new)>(p: T -> bool, a: seq<T>, b: seq<T>)
    ensures Filter(p, a + b) == Filter(p, a) + Filter(p, b)
  {
    if |a| == 0 {
      assert a + b == b;
    } else {
      assert (a + b)[1..] == a[1..] + b;
      FilterConcat(p, a[1..], b);
    }
  }

  /** `FilterConcat` for three pieces. */
  lemma FilterConcat3<T(!new)>(p: T -> bool, a: seq<T>, b: seq<T>, c: seq<T>)
    ensures Filter(p, a + b + c) == Filter(p, a) + Filter(p, b) + Filter(p, c)
  {
    FilterConcat(p, a + b, c);
    FilterConcat(p, a, b);
  }

  /** Sorting the filtered elements keeps exactly the elements satisfying `p`. */
  lemma SortFilterMembers<T(!new)>(le: (T, T) -> bool, p: T -> bool, s: seq<T>)
    ensures forall x :: x in Sort(le, Filter(p, s)) <==> x in s && p(x)
  {
    var f := Filter(p, s);
    assert forall x :: x in Sort(le, f) <==> x in multiset(f);
  }

  /** `le` orders every pair one way or the other, as a comparator does. */
  ghost predicate Total<T(!new)>(le: (T, T) -> bool) {
    forall a, b :: le(a, b) || le(b, a)
  }

  /** Each element may precede its successor under `le`. */
  predicate SortedBy<T>(le: (T, T) -> bool, s: seq<T>) {
    forall i :: 1 <= i < |s| ==> le(s[i - 1], s[i])
  }

  /** Places `x` before the first element it may precede; `x` goes before
      equal elements, which keeps the sort below stable. */
  function Insert<T(!new)>(le: (T, T) -> bool, x: T, s: seq<T>): (r: seq<T>)
    ensures |r| == |s| + 1
    ensures multiset(r) == multiset(s) + multiset{x}
    ensures r[0] == x || (|s| > 0 && r[0] == s[0])
    ensures Total(le) && SortedBy(le, s) ==> SortedBy(le, r)
  {
    if |s| == 0 || le(x, s[0]) then
      assert SortedBy(le, s) ==> SortedBy(le, [x] + s) by {
        if SortedBy(le, s) {
          ConsSorted(le, x, s);
        }
      }
      [x] + s
    else
      var rest := Insert(le, x, s[1..]);
      assert s == [s[0]] + s[1..];
      assert Total(le) && SortedBy(le, s) ==> SortedBy(le, [s[0]] + rest) by {
        if Total(le) && SortedBy(le, s) {
          assert SortedBy(le, s[1..]);
          assert le(s[0], rest[0]) by {
            if rest[0] == x {
              assert le(x, s[0]) || le(s[0], x);
            }
          }
          ConsSorted(le, s[0], rest);
        }
      }
      [s[0]] + rest
  }

  /** Putting an element before a sorted sequence it may precede keeps it sorted. */
  lemma ConsSorted<T>(le: (T, T) -> bool, a: T, t: seq<T>)
    requires SortedBy(le, t)
    requires |t| > 0 ==> le(a, t[0])
    ensures SortedBy(le, [a] + t)
  {
    var r := [a] + t;
    forall i | 1 <= i < |r|
      ensures le(r[i - 1], r[i])
    {
      if i > 1 {
        assert r[i - 1] == t[i - 2] && r[i] == t[i - 1];
      }
    }
  }

  /** `Array.prototype.sort` with a comparator: a permutation of `s`, in
      order whenever the comparator is total. */
  function Sort<T(!new)>(le: (T, T) -> bool, s: seq<T>): (r: seq<T>)
    ensures |r| == |s|
    ensures multiset(r) == multiset(s)
    ensures Total(le) ==> SortedBy(le, r)
  {
    if |s| == 0 then []
    else
      assert s == [s[0]] + s[1..];
      Insert(le, s[0], Sort(le, s[1..]))
  }
}

=== FILE: records.dfy ===
/** The two document collections the handlers read and write: `users` and
    `subscriptions`, and how a client-supplied user id is turned into a
    document id. Times are integer milliseconds since the epoch. */
module Records {
  import opened Prelude
  import JsString

  /** Length of a day in milliseconds; `setDate(getDate() + n)` adds n of these. */
  const DayMs: int := 86_400_000

  /** A document of the `users` collection. `id` is the canonical hex form of `_id`. */
  datatype UserDoc = UserDoc(id: string, name: Option<string>, email: string,
                             password: string, createdAt: int)

  /** The subscription statuses the handlers write and query. */
  datatype Status = Active | Inactive | Revoked

  /** A document of the `subscriptions` collection. `plan` may be missing on
      records written elsewhere. */
  datatype Subscription = Subscription(
    userId: string,
    userEmail: string,
    status: Status,
    plan: Option<string>,
    startDate: int,
    expiryDate: int,
    amount: int,
    currency: string,
    reference: string,
    createdAt: int,
    updatedAt: int)

  predicate IsHexDigit(c: char) {
    ('0' <= c <= '9') || ('a' <= c <= 'f') || ('A' <= c <= 'F')
  }

  /** The form `_id.toString()` produces: 24 lower-case hex digits. */
  predicate IsCanonicalId(s: string) {
    |s| == 24 && forall i :: 0 <= i < |s| ==> ('0' <= s[i] <= '9') || ('a' <= s[i] <= 'f')
  }

  /** `new ObjectId(s)` for a string as the bson package does from version
      5 on: it accepts exactly 24 hex digits of either case (anything else
      throws) and names the id they spell. Earlier versions also accept any
      12-character string as raw bytes; that case is not modelled. */
  function ParseObjectId(s: string): (r: Option<string>)
    ensures r.Some? <==> |s| == 24 && forall i :: 0 <= i < |s| ==> IsHexDigit(s[i])
    ensures r.Some? ==> IsCanonicalId(r.value)
    ensures r.Some? ==> |r.value| == 24 && forall i :: 0 <= i < 24 ==> r.value[i] == JsString.LowerChar(s[i])
    ensures IsCanonicalId(s) ==> r == Some(s)
  {
    if |s| == 24 && forall i :: 0 <= i < |s| ==> IsHexDigit(s[i]) then
      var lower := JsString.ToLower(s);
      assert IsCanonicalId(s) ==> lower == s;
      Some(lower)
    else None
  }

  /** The user field a `findOne` filter names. */
  datatype UserField = IdField | EmailField

  function FieldOf(u: UserDoc, field: UserField): string {
    match field
    case IdField => u.id
    case EmailField => u.email
  }

  /** `users.findOne({ <field>: value })`: the first user, in collection
      order, whose field holds `value`. */
  function FindUser(users: seq<UserDoc>, field: UserField, value: string): (r: Option<UserDoc>)
    ensures r.Some? <==> exists u :: u in users && FieldOf(u, field) == value
    ensures r.Some? ==> r.value in users && FieldOf(r.value, field) == value
  {
    if |users| == 0 then None
    else if FieldOf(users[0], field) == value then Some(users[0])
    else FindUser(users[1..], field, value)
  }

  /** The user found is the first match: no earlier user holds `value`. */
  lemma {:induction false} FindUserIsFirst(users: seq<UserDoc>, field: UserField, value: string)
    ensures var r := FindUser(users, field, value);
      r.Some? ==> exists i :: (0 <= i < |users| && users[i] == r.value
                                && forall k :: 0 <= k < i ==> FieldOf(users[k], field) != value)
  {
    if |users| > 0 && FieldOf(users[0], field) != value {
      var r := FindUser(users[1..], field, value);
      FindUserIsFirst(users[1..], field, value);
      if r.Some? {
        var i :| 0 <= i < |users[1..]| && users[1..][i] == r.value
          && forall k :: 0 <= k < i ==> FieldOf(users[1..][k], field) != value;
        assert users[i + 1] == r.value;
        forall k | 0 <= k < i + 1
          ensures FieldOf(users[k], field) != value
        {
          if k > 0 {
            assert users[k] == users[1..][k - 1];
          }
        }
      }
    }
  }

  /** `users.findOne({ _id })`: the first user with that id. */
  function FindUserById(users: seq<UserDoc>, id: string): (r: Option<UserDoc>)
    ensures r.Some? <==> exists u :: u in users && u.id == id
    ensures r.Some? ==> r.value in users && r.value.id == id
  {
    FindUser(users, IdField, id)
  }

  /** `users.findOne({ email })`: the first user with that email. */
  function FindUserByEmail(users: seq<UserDoc>, email: string): (r: Option<UserDoc>)
    ensures r.Some? <==> exists u :: u in users && u.email == email
    ensures r.Some? ==> r.value in users && r.value.email == email
  {
    FindUser(users, EmailField, email)
  }
}

=== FILE: register.dfy ===
/** The registration endpoint (`POST /api/auth/register`): required-field and
    password-length checks, then the user-creation call, whose throws are
    mapped to 409 (duplicate) or 500. The creation call is a parameter: its
    behaviour lives outside this repository. */
module Register {
  import opened Prelude
  import JsString

  /** What a `catch` receives: an `Error` with its message, or any other value. */
  datatype Thrown = ErrorObject(message: string) | OtherValue

  /** The request body. `Unparseable` carries the error `request.json()` threw;
      a `None` field was absent. */
  datatype RegisterBody =
    | Unparseable(parseError: Thrown)
    | Fields(name: Option<string>, email: Option<string>, password: Option<string>)

  /** The argument of `createUser`. */
  datatype NewUser = NewUser(name: string, email: string, password: string)

  /** What `createUser` resolves to; it carries the stored password hash. */
  datatype CreatedUser = CreatedUser(id: string, name: string, email: string, passwordHash: string)

  datatype CreateResult = Created(user: CreatedUser) | Threw(thrown: Thrown)

  /** The user as the reply shows it: id, name and email only. */
  datatype PublicUser = PublicUser(id: string, name: string, email: string)

  datatype Reply = Reply(status: int, message: string, user: Option<PublicUser>)

  const MinPasswordLength: int := 8
  const RequiredMessage := "Name, email, and password are required"
  const ShortPasswordMessage := "Password must be at least 8 characters long"
  const SuccessMessage := "User registered successfully"

  /** The reply for a value caught by the handler's `catch`. */
  function CatchReply(thrown: Thrown): (r: Reply)
    ensures r.user == None
    ensures r.status == 409 <==> thrown.ErrorObject? && JsString.Includes(thrown.message, "already exists")
    ensures r.status != 409 ==> r.status == 500
    ensures thrown.ErrorObject? ==> r.message == thrown.message
    ensures thrown.OtherValue? ==> r.message == "Failed to register user"
  {
    match thrown
    case ErrorObject(message) =>
      if JsString.Includes(message, "already exists") then Reply(409, message, None)
      else Reply(500, message, None)
    case OtherValue => Reply(500, "Failed to register user", None)
  }

  /** The handler; `createUser` stands for the creation call. */
  function Post(body: RegisterBody, createUser: NewUser -> CreateResult): (r: Reply)
    ensures r.status == 400 <==>
      body.Fields? && (!Present(body.name) || !Present(body.email) || !Present(body.password)
                       || |body.password.value| < MinPasswordLength)
    ensures r.status == 200 <==>
      body.Fields? && Present(body.name) && Present(body.email) && Present(body.password)
      && |body.password.value| >= MinPasswordLength
      && createUser(NewUser(body.name.value, body.email.value, body.password.value)).Created?
  {
    match body
    case Unparseable(e) => CatchReply(e)
    case Fields(name, email, password) =>
      if !Present(name) || !Present(email) || !Present(password) then
        Reply(400, RequiredMessage, None)
      else if |password.value| < MinPasswordLength then
        Reply(400, ShortPasswordMessage, None)
      else
        match createUser(NewUser(name.value, email.value, password.value))
        case Created(u) => Reply(200, SuccessMessage, Some(PublicUser(u.id, u.name, u.email)))
        case Threw(e) => CatchReply(e)
  }

  /** A missing or empty field is answered with 400 whatever the creation
      call would do: it is never consulted. */
  lemma MissingFieldRejectedBeforeCreation(name: Option<string>, email: Option<string>,
                                           password: Option<string>, createUser: NewUser -> CreateResult)
    requires !Present(name) || !Present(email) || !Present(password)
    ensures Post(Fields(name, email, password), createUser) == Reply(400, RequiredMessage, None)
  {
  }

  /** A password of fewer than 8 characters is answered with 400 and the
      creation call is never consulted; one of exactly 8 passes validation. */
  lemma PasswordLengthBoundary(name: string, email: string, password: string,
                               createUser: NewUser -> CreateResult)
    requires name != "" && email != ""
    ensures 0 < |password| < 8 ==>
      Post(Fields(Some(name), Some(email), Some(password)), createUser) == Reply(400, ShortPasswordMessage, None)
    ensures |password| == 8 ==>
      Post(Fields(Some(name), Some(email), Some(password)), createUser).status != 400
  {
  }

  /** On success the reply shows exactly the created user's id, name and email. */
  lemma SuccessShowsPublicFields(body: RegisterBody, createUser: NewUser -> CreateResult)
    requires Post(body, createUser).status == 200
    ensures var u := createUser(NewUser(body.name.value, body.email.value, body.password.value)).user;
      Post(body, createUser) == Reply(200, SuccessMessage, Some(PublicUser(u.id, u.name, u.email)))
  {
  }

  /** A creation error mentioning "already exists" becomes 409 with that
      message; every other throw becomes 500. */
  lemma CreationErrorMapping(name: string, email: string, password: string,
                             createUser: NewUser -> CreateResult)
    requires name != "" && email != "" && |password| >= 8
    requires createUser(NewUser(name, email, password)).Threw?
    ensures var thrown := createUser(NewUser(name, email, password)).thrown;
      var r := Post(Fields(Some(name), Some(email), Some(password)), createUser);
      && (thrown.ErrorObject? && JsString.Includes(thrown.message, "already exists") ==>
            r == Reply(409, thrown.message, None))
      && (!(thrown.ErrorObject? && JsString.Includes(thrown.message, "already exists")) ==>
            r.status == 500)
  {
  }
}

=== FILE: sessions.dfy ===
/** The session shape the authentication library hands to the handlers and
    pages, and the administrator allow-list both admin routes check. */
module Sessions {
  import opened Prelude

  /** `session.user`: every field may be missing. */
  datatype SessionUser = SessionUser(id: Option<string>, name: Option<string>, email: Option<string>)

  /** A decoded session; `user` may be missing. */
  datatype Session = Session(user: Option<SessionUser>, expires: string)

  /** The `status` reported by the client-side session hook. */
  datatype SessionStatus = Loading | Authenticated | Unauthenticated

  /** The allow-list each admin route declares (`ADMIN_EMAILS`). */
  const AdminEmails: seq<string> := ["peteragak61@gmail.com"]

  /** The single address the admin page compares against (`ADMIN_EMAIL`). */
  const AdminEmail: string := "peteragak61@gmail.com"

  /** `session?.user?.email` when it is truthy: present and not empty. */
  function SessionEmail(session: Option<Session>): (e: Option<string>)
    ensures e.Some? <==> session.Some? && session.value.user.Some?
                         && session.value.user.value.email.Some?
                         && session.value.user.value.email.value != ""
    ensures e.Some? ==> e == session.value.user.value.email
  {
    match session
    case None => None
    case Some(s) =>
      match s.user
      case None => None
      case Some(u) =>
        match u.email
        case None => None
        case Some(e) => if e == "" then None else Some(e)
  }

  /** The gate both admin routes run first: a truthy session email that is
      on the allow-list. */
  predicate IsAdminSession(session: Option<Session>)
    ensures IsAdminSession(session) ==>
      session.Some? && session.value.user.Some? && session.value.user.value.email == Some(AdminEmail)
  {
    var e := SessionEmail(session);
    e.Some? && e.value in AdminEmails
  }

  /** An admin session is exactly one whose email is the page's `ADMIN_EMAIL`. */
  lemma AdminSessionIsAdminEmail(session: Option<Session>)
    ensures IsAdminSession(session) <==> SessionEmail(session) == Some(AdminEmail)
  {
  }
}

=== FILE: subscriptions.dfy ===
/** The admin subscription endpoint (`POST /api/admin/subscriptions`):
    gate order admin check, body validation, user lookup; then either a
    grant (retire the user's active records, append one new active record)
    or a revoke (mark the user's active records revoked). The collection is
    a sequence in insertion order and each request is one transition. */
module Subscriptions {
  import opened Prelude
  import opened Records
  import opened Sessions

  datatype Action = Grant | Revoke

  /** The request body. `Unparseable` is a body `request.json()` rejects;
      a `None` field was absent. */
  datatype RequestBody =
    | Unparseable
    | Json(userId: Option<string>, action: Option<string>, durationDays: Option<int>)

  /** Which database call throws, if any; every throw lands in the 500 path. */
  datatype Fault = NoFault | ConnectFails | LookupFails | UpdateFails | InsertFails

  datatype Response = Response(status: int, message: string)

  /** The reply together with the collection as it stands afterwards. */
  datatype Outcome = Outcome(response: Response, store: seq<Subscription>)

  /** The default of `durationDays` when the body leaves it out. */
  const DefaultDurationDays: int := 365

  const Unauthorized := Response(401, "Unauthorized")
  const InvalidRequest := Response(400, "Invalid request")
  const UserNotFound := Response(404, "User not found")
  const UpdateFailed := Response(500, "Failed to update subscription")

  /** `["grant", "revoke"].includes(action)`, naming the chosen action. */
  function ParseAction(action: Option<string>): (a: Option<Action>)
    ensures a == Some(Grant) <==> action == Some("grant")
    ensures a == Some(Revoke) <==> action == Some("revoke")
  {
    if action == Some("grant") then Some(Grant)
    else if action == Some("revoke") then Some(Revoke)
    else None
  }

  /** The 400 check: a truthy `userId` and a recognised `action`. */
  predicate IsValidRequest(userId: Option<string>, action: Option<string>) {
    userId.Some? && userId.value != "" && ParseAction(action).Some?
  }

  /** The filter `{ userId, status: "active" }` of both `updateMany` calls. */
  predicate Targets(s: Subscription, userId: string) {
    s.userId == userId && s.status == Active
  }

  /** `updateMany({ userId, status: "active" }, { $set: { status: to, updatedAt: now } })`. */
  function RetireActive(store: seq<Subscription>, userId: string, to: Status, now: int): (r: seq<Subscription>)
    ensures |r| == |store|
    ensures forall i :: 0 <= i < |r| ==> r[i].userId == store[i].userId
    ensures forall i :: 0 <= i < |r| && Targets(store[i], userId) ==> r[i].status == to && r[i].updatedAt == now
    ensures forall i :: 0 <= i < |r| && !Targets(store[i], userId) ==> r[i] == store[i]
  {
    if |store| == 0 then []
    else
      var head := if Targets(store[0], userId) then store[0].(status := to, updatedAt := now) else store[0];
      [head] + RetireActive(store[1..], userId, to, now)
  }

  /** Record by record, the update rewrites exactly the matching records:
      status and `updatedAt` change, every other field is kept. */
  lemma {:induction false} RetireActivePointwise(store: seq<Subscription>, userId: string, to: Status, now: int)
    ensures forall i :: 0 <= i < |store| ==>
      RetireActive(store, userId, to, now)[i]
        == (if Targets(store[i], userId) then store[i].(status := to, updatedAt := now) else store[i])
  {
    if |store| > 0 {
      RetireActivePointwise(store[1..], userId, to, now);
    }
  }

  /** After the update the user has no active record left. */
  lemma NoActiveAfterRetire(store: seq<Subscription>, userId: string, to: Status, now: int)
    requires to != Active
    ensures forall i :: 0 <= i < |store| ==> !Targets(RetireActive(store, userId, to, now)[i], userId)
  {
    RetireActivePointwise(store, userId, to, now);
  }

  /** A user without active records is left untouched by the update. */
  lemma RetireWithoutTargetsIsIdentity(store: seq<Subscription>, userId: string, to: Status, now: int)
    requires forall i :: 0 <= i < |store| ==> !Targets(store[i], userId)
    ensures RetireActive(store, userId, to, now) == store
  {
    RetireActivePointwise(store, userId, to, now);
  }

  /** The record `insertOne` adds on a grant. */
  function GrantRecord(userId: string, userEmail: string, adminEmail: string, now: int, days: int): Subscription {
    Subscription(
      userId := userId,
      userEmail := userEmail,
      status := Active,
      plan := Some("premium"),
      startDate := now,
      expiryDate := now + days * DayMs,
      amount := 0,
      currency := "KES",
      reference := "MANUAL_GRANT_BY_" + adminEmail,
      createdAt := now,
      updatedAt := now)
  }

  /** The grant branch: deactivate, then insert; either write may throw. */
  function ApplyGrant(store: seq<Subscription>, userId: string, target: UserDoc, adminEmail: string,
                      now: int, days: int, fault: Fault): (o: Outcome)
    ensures o.response.status == 200 <==> fault !in {UpdateFails, InsertFails}
    ensures o.response.status != 200 ==> o.response == UpdateFailed
    ensures fault == UpdateFails ==> o.store == store
    ensures o.response.status == 200 ==>
      |o.store| == |store| + 1 && Targets(o.store[|store|], userId)
      && o.store[|store|].expiryDate == now + days * DayMs
      && forall i :: 0 <= i < |store| ==> !Targets(o.store[i], userId)
  {
    var retired := RetireActive(store, userId, Inactive, now);
    if fault == UpdateFails then Outcome(UpdateFailed, store)
    else if fault == InsertFails then Outcome(UpdateFailed, retired)
    else Outcome(Response(200, "Granted premium to " + target.email),
                 retired + [GrantRecord(userId, target.email, adminEmail, now, days)])
  }

  /** The revoke branch: one update, which may throw. */
  function ApplyRevoke(store: seq<Subscription>, userId: string, target: UserDoc, now: int, fault: Fault): (o: Outcome)
    ensures o.response.status == 200 <==> fault != UpdateFails
    ensures |o.store| == |store|
    ensures o.response.status != 200 ==> o.response == UpdateFailed && o.store == store
    ensures o.response.status == 200 ==> forall i :: 0 <= i < |store| ==> !Targets(o.store[i], userId)
  {
    if fault == UpdateFails then Outcome(UpdateFailed, store)
    else Outcome(Response(200, "Revoked premium from " + target.email),
                 RetireActive(store, userId, Revoked, now))
  }

  /** The user document the request names, when its id parses and exists. */
  function TargetUser(users: seq<UserDoc>, userId: string): Option<UserDoc> {
    match ParseObjectId(userId)
    case None => None
    case Some(oid) => FindUserById(users, oid)
  }

  /** The handler. `now` is the clock reading shared by every `new Date()`
      of the request; `fault` says which database call throws, if any. */
  function Post(session: Option<Session>, body: RequestBody, users: seq<UserDoc>,
                store: seq<Subscription>, now: int, fault: Fault): (o: Outcome)
    ensures o.response.status in {200, 400, 401, 404, 500}
    ensures o.response.status == 401 <==> !IsAdminSession(session)
    ensures o.response.status == 400 <==>
      IsAdminSession(session) && body.Json? && !IsValidRequest(body.userId, body.action)
    ensures o.response.status == 404 <==>
      IsAdminSession(session) && body.Json? && IsValidRequest(body.userId, body.action)
      && fault !in {ConnectFails, LookupFails}
      && ParseObjectId(body.userId.value).Some?
      && FindUserById(users, ParseObjectId(body.userId.value).value).None?
    ensures o.response.status == 200 ==>
      fault in {NoFault, InsertFails} && body.Json? && IsValidRequest(body.userId, body.action)
      && TargetUser(users, body.userId.value).Some?
    ensures (IsAdminSession(session) && body.Json? && IsValidRequest(body.userId, body.action)
             && TargetUser(users, body.userId.value).Some? && fault == NoFault)
            ==> o.response.status == 200
    ensures o.response.status in {400, 401, 404} ==> o.store == store
    ensures |o.store| == |store| || |o.store| == |store| + 1
  {
    if !IsAdminSession(session) then Outcome(Unauthorized, store)
    else if body.Unparseable? then Outcome(UpdateFailed, store)
    else if !IsValidRequest(body.userId, body.action) then Outcome(InvalidRequest, store)
    else if fault == ConnectFails then Outcome(UpdateFailed, store)
    else
      var userId := body.userId.value;
      match ParseObjectId(userId)
      case None => Outcome(UpdateFailed, store)
      case Some(oid) =>
        if fault == LookupFails then Outcome(UpdateFailed, store)
        else
          match FindUserById(users, oid)
          case None => Outcome(UserNotFound, store)
          case Some(target) =>
            var adminEmail := SessionEmail(session).value;
            if ParseAction(body.action) == Some(Grant) then
              ApplyGrant(store, userId, target, adminEmail, now,
                         body.durationDays.GetOr(DefaultDurationDays), fault)
            else
              ApplyRevoke(store, userId, target, now, fault)
  }

  /** A successful grant: the user's previously active records become
      inactive, nothing else in the collection changes, and the appended
      record, the only active one of the user, carries the manual-grant
      fields with expiry `durationDays` (default 365) days after now. */
  lemma GrantEffect(session: Option<Session>, userId: string, days: Option<int>,
                    users: seq<UserDoc>, store: seq<Subscription>, now: int, fault: Fault)
    requires Post(session, Json(Some(userId), Some("grant"), days), users, store, now, fault).response.status == 200
    ensures var o := Post(session, Json(Some(userId), Some("grant"), days), users, store, now, fault);
      var target := TargetUser(users, userId).value;
      && |o.store| == |store| + 1
      && o.response.message == "Granted premium to " + target.email
      && (forall i :: 0 <= i < |store| && Targets(store[i], userId) ==>
            o.store[i] == store[i].(status := Inactive, updatedAt := now))
      && (forall i :: 0 <= i < |store| && !Targets(store[i], userId) ==> o.store[i] == store[i])
      && (forall i :: 0 <= i < |o.store| ==> (Targets(o.store[i], userId) <==> i == |store|))
      && o.store[|store|].userId == userId
      && o.store[|store|].userEmail == target.email
      && o.store[|store|].plan == Some("premium")
      && o.store[|store|].amount == 0
      && o.store[|store|].currency == "KES"
      && o.store[|store|].startDate == now
      && o.store[|store|].expiryDate == now + days.GetOr(365) * DayMs
      && o.store[|store|].reference == "MANUAL_GRANT_BY_" + SessionEmail(session).value
  {
    RetireActivePointwise(store, userId, Inactive, now);
  }

  /** A successful revoke: every previously active record of the user is now
      revoked, no record of the user stays active, every other record is
      kept, and the collection keeps its size. */
  lemma RevokeEffect(session: Option<Session>, userId: string, days: Option<int>,
                     users: seq<UserDoc>, store: seq<Subscription>, now: int, fault: Fault)
    requires Post(session, Json(Some(userId), Some("revoke"), days), users, store, now, fault).response.status == 200
    ensures var o := Post(session, Json(Some(userId), Some("revoke"), days), users, store, now, fault);
      && |o.store| == |store|
      && o.response.message == "Revoked premium from " + TargetUser(users, userId).value.email
      && (forall i :: 0 <= i < |store| && Targets(store[i], userId) ==>
            o.store[i] == store[i].(status := Revoked, updatedAt := now))
      && (forall i :: 0 <= i < |store| && !Targets(store[i], userId) ==> o.store[i] == store[i])
      && (forall i :: 0 <= i < |o.store| ==> !Targets(o.store[i], userId))
  {
    RetireActivePointwise(store, userId, Revoked, now);
  }

  /** Revoking a user without active records changes nothing and still
      reports success. */
  lemma RevokeWithoutActiveIsNoOp(session: Option<Session>, userId: string, users: seq<UserDoc>,
                                  store: seq<Subscription>, now: int)
    requires IsAdminSession(session) && userId != ""
    requires TargetUser(users, userId).Some?
    requires forall i :: 0 <= i < |store| ==> !Targets(store[i], userId)
    ensures Post(session, Json(Some(userId), Some("revoke"), None), users, store, now, NoFault)
            == Outcome(Response(200, "Revoked premium from " + TargetUser(users, userId).value.email), store)
  {
    RetireWithoutTargetsIsIdentity(store, userId, Revoked, now);
  }

  /** If the insert of a grant throws after the update succeeded, the user is
      left with no active record, never with two. */
  lemma GrantInsertFailureLeavesNoActive(session: Option<Session>, userId: string, days: Option<int>,
                                         users: seq<UserDoc>, store: seq<Subscription>, now: int)
    requires IsAdminSession(session) && userId != ""
    requires TargetUser(users, userId).Some?
    ensures var o := Post(session, Json(Some(userId), Some("grant"), days), users, store, now, InsertFails);
      && o.response == UpdateFailed
      && |o.store| == |store|
      && forall i :: 0 <= i < |o.store| ==> !Targets(o.store[i], userId)
  {
    NoActiveAfterRetire(store, userId, Inactive, now);
  }

  /** No two active records carry the same `userId` string. The string is
      stored as the request sent it, so two case variants of one id count
      as different here although they name the same user. */
  ghost predicate SingleActivePerUser(store: seq<Subscription>) {
    forall i, j :: 0 <= i < j < |store| && store[i].status == Active && store[j].status == Active
      ==> store[i].userId != store[j].userId
  }

  /** Every request, whatever its outcome, keeps "at most one active record
      per `userId` string" true of the collection. */
  lemma PostPreservesSingleActive(session: Option<Session>, body: RequestBody, users: seq<UserDoc>,
                                  store: seq<Subscription>, now: int, fault: Fault)
    requires SingleActivePerUser(store)
    ensures SingleActivePerUser(Post(session, body, users, store, now, fault).store)
  {
    var o := Post(session, body, users, store, now, fault);
    if o.store != store {
      var userId := body.userId.value;
      var to := if ParseAction(body.action) == Some(Grant) then Inactive else Revoked;
      var retired := RetireActive(store, userId, to, now);
      RetireActivePointwise(store, userId, to, now);
      assert o.store[..|retired|] == retired;
      forall i, j | 0 <= i < j < |o.store| && o.store[i].status == Active && o.store[j].status == Active
        ensures o.store[i].userId != o.store[j].userId
      {
        assert o.store[i] == retired[i] == store[i];
        if j < |retired| {
          assert o.store[j] == retired[j] == store[j];
        }
      }
    }
  }

  /** The upper- and lower-case forms of one id parse to the same id. */
  lemma CaseVariantsParseAlike(lower: string, upper: string)
    requires lower == seq(24, _ => 'a') && upper == seq(24, _ => 'A')
    ensures ParseObjectId(upper) == ParseObjectId(lower) == Some(lower)
  {
    assert IsCanonicalId(lower);
    assert forall i :: 0 <= i < |upper| ==> IsHexDigit(upper[i]);
    var r := ParseObjectId(upper).value;
    assert forall i :: 0 <= i < 24 ==> r[i] == lower[i];
    assert r == lower;
  }

  /** Per user the invariant can fail: granting through the upper-case form
      of an id and then through its lower-case form leaves two active
      records for the one user both forms name. */
  lemma CaseVariantGrantsLeaveTwoActive()
    ensures var lower, upper := seq(24, _ => 'a'), seq(24, _ => 'A');
      var users := [UserDoc(lower, None, "user@example.com", "hash", 0)];
      var session := Some(Session(Some(SessionUser(None, None, Some(AdminEmail))), ""));
      var first := Post(session, Json(Some(upper), Some("grant"), None), users, [], 0, NoFault);
      var second := Post(session, Json(Some(lower), Some("grant"), None), users, first.store, 0, NoFault);
      && TargetUser(users, upper) == TargetUser(users, lower) == Some(users[0])
      && second.response.status == 200
      && |second.store| == 2
      && second.store[0].status == Active && second.store[1].status == Active
  {
    var lower, upper := seq(24, _ => 'a'), seq(24, _ => 'A');
    var users := [UserDoc(lower, None, "user@example.com", "hash", 0)];
    var session := Some(Session(Some(SessionUser(None, None, Some(AdminEmail))), ""));
    assert IsAdminSession(session);
    CaseVariantsParseAlike(lower, upper);
    assert FindUserById(users, lower) == Some(users[0]);
    var g1 := GrantRecord(upper, "user@example.com", AdminEmail, 0, DefaultDurationDays);
    var first := Post(session, Json(Some(upper), Some("grant"), None), users, [], 0, NoFault);
    assert first.store == [g1];
    assert upper[0] != lower[0];
    assert RetireActive([g1], lower, Inactive, 0) == [g1];
    var second := Post(session, Json(Some(lower), Some("grant"), None), users, first.store, 0, NoFault);
    assert second.store == [g1, GrantRecord(lower, "user@example.com", AdminEmail, 0, DefaultDurationDays)];
  }

  /** A revoke through the upper-case form of an id replies that premium was
      revoked, yet the active record granted through the lower-case form
      stays active: the update filters on the raw string. */
  lemma CaseVariantRevokeLeavesGrantActive()
    ensures var lower, upper := seq(24, _ => 'a'), seq(24, _ => 'A');
      var users := [UserDoc(lower, None, "user@example.com", "hash", 0)];
      var session := Some(Session(Some(SessionUser(None, None, Some(AdminEmail))), ""));
      var granted := Post(session, Json(Some(lower), Some("grant"), None), users, [], 0, NoFault);
      var revoked := Post(session, Json(Some(upper), Some("revoke"), None), users, granted.store, 0, NoFault);
      && revoked.response == Response(200, "Revoked premium from user@example.com")
      && revoked.store == granted.store
      && |revoked.store| == 1 && revoked.store[0].userId == lower && revoked.store[0].status == Active
  {
    var lower, upper := seq(24, _ => 'a'), seq(24, _ => 'A');
    var users := [UserDoc(lower, None, "user@example.com", "hash", 0)];
    var session := Some(Session(Some(SessionUser(None, None, Some(AdminEmail))), ""));
    assert IsAdminSession(session);
    CaseVariantsParseAlike(lower, upper);
    assert FindUserById(users, lower) == Some(users[0]);
    var g := GrantRecord(lower, "user@example.com", AdminEmail, 0, DefaultDurationDays);
    var granted := Post(session, Json(Some(lower), Some("grant"), None), users, [], 0, NoFault);
    assert granted.store == [g];
    assert upper[0] != lower[0];
    assert RetireActive([g], upper, Revoked, 0) == [g];
  }
}
